=== FILE: README.md ===
# SVXLink panel: svxlink.conf patching and DTMF control, in Dafny

This project models two pieces of a PHP web panel for an SVXLink radio node.

**The configuration saver** (`includes/save-svx.php`) rewrites svxlink.conf from a posted form in two passes:

- **The rewrite loop** (lines 11-52) reads the file line by line. It tracks the current `[Section]`. It rewrites every `KEY=VALUE` line, commented or not, whose key matches a posted field.
  - `DTMF_CTRL_PTY` inside `[SimplexLogic]` is handled specially. It is written enabled or commented out, depending on the flag `DTMF_CTRL_PTY_enabled`.
  - Every other line is copied.
- **The insertion pass** (lines 54-82) runs when that key was never seen and the flag is `'1'`. It adds `DTMF_CTRL_PTY=<device>` at the end of the first `[SimplexLogic]` section.

**The DTMF page** (`dtmf-commands.php`) does the following:

- It reads the PTY device back from svxlink.conf with `getPTYPathFromConfig()` (lines 11-44).
- It renders the configured execution command with the code and the device.
- It runs that command and reads the exit status from an `EXIT_CODE:<n>` sentinel appended to the captured output (lines 136-186).
- It refuses an empty code (lines 280-292).
- It deletes stored shortcuts by id (lines 260-267).

The imperative code is modelled as methods with loops, each proved against a specification function:

- the rewrite loop: `SvxConf.RewriteLines`;
- the insertion pass: `SvxConf.InsertPtyLine`;
- the lookup's scan: `PtyLookup.GetPtyPathFromConfig`.

The pure code is modelled as functions.

PHP's primitives are written out explicitly:

- `trim()`;
- PCRE `\s` and `[A-Z0-9_]` under `/i`;
- `strcasecmp`;
- `str_replace`;
- `empty()`;
- loose `== '1'`;
- `file()` and `implode("")`.

Each regular expression is a function that follows PCRE's greedy matching.

Three quirks of the saver are reproduced and proved, not fixed:

- The special case compares the section name case-sensitively (`=== "SimplexLogic"`), but the insertion pass looks for the header ignoring case. When the first such header is spelled `[simplexlogic]`, no `DTMF_CTRL_PTY` line already sits in a section named exactly `SimplexLogic` and every posted value is one line, every save of an enabling form therefore adds one more `DTMF_CTRL_PTY` line: n saves add n lines (`SvxConfProperties.MisnamedHeaderGrowsEachSave`). Patching the patched lines again changes nothing exactly when this does not happen (`SvxConfProperties.PatchIdempotent`). On the file itself, saving twice writes the same content as saving once when, in addition, the old content is empty or ends in a newline (`PatchLookup.SavedIdempotent`).
- A plain replacement rewrites every line with a matching key, in every section. The replacement line is never commented out.
- Without a `[SimplexLogic]` header the insertion is skipped silently.

The central cross-file property is `PatchLookup.SaveThenLookup`. Save the form with the device enabled, then look the device up in the written file: the lookup returns the posted device path, trimmed. `DtmfPanel.SaveThenSend` carries this through to the command the DTMF page renders.

Modules:

- `Wrappers`: Option.
- `PhpText`: PHP string primitives and `file()`.
- `SvxConf`: the saver's functions and methods.
- `SvxLines`: per-line facts about the saver's regexes.
- `SvxConfProperties`: properties of the two passes.
- `PtyLookup`: the lookup.
- `LookupLines`: per-line facts about the lookup's regexes.
- `PatchLookup`: saver and lookup together.
- `DtmfCommands`: rendering, sentinel, result record, guard, delete filter.
- `DtmfPanel`: how the page combines them.

## Model

| member | source | states |
|---|---|---|
| SvxConf.Lookup | includes/save-svx.php:27-28 | `$_POST[name]` is set exactly when a posted pair has that name, and the result is that pair's value |
| SvxConf.LastCloseBracket | includes/save-svx.php:16-17 | the index found holds `]` and no `]` follows it; when there is none, no character is `]` |
| SvxConf.PlainMatch | includes/save-svx.php:39-45 | the value returned is that of the first posted field, in request order, whose name equals the key ignoring case and does not end in `_enabled`; none is returned exactly when no field qualifies |
| SvxConf.GovernedBeforeExists | includes/save-svx.php:25-26 | `$dtmf_ctrl_pty_procesado` is set after line i exactly when some earlier line was `DTMF_CTRL_PTY` inside a section named exactly `SimplexLogic` |
| SvxConf.RewrittenAt | includes/save-svx.php:11-52 | each output line of the rewrite loop is the input line at the same position, copied or rewritten in the section in effect |
| SvxConf.FirstPass | includes/save-svx.php:11-52 | the rewrite loop emits exactly one line per input line, in order, each the rewrite of the line at the same position |
| SvxConf.FindSimplexHeader | includes/save-svx.php:60-62 | the index found opens `[SimplexLogic]` (any case) and no earlier one does; none is found only when no line opens it |
| SvxConf.SectionEnd | includes/save-svx.php:64-68 | the insertion point follows every line after the header that does not start with `[`, and stops at the first that does, or at the end |
| SvxConf.RewriteLine | includes/save-svx.php:12-51 | the loop body emits the rewrite of the line, and the special case runs exactly for key `DTMF_CTRL_PTY` in section `SimplexLogic` |
| SvxConf.RewriteLines | includes/save-svx.php:11-52 | the loop builds exactly the rewrite pass, and its flag ends set exactly when some line was governed |
| SvxConf.InsertPtyLine | includes/save-svx.php:58-81 | the index loops build exactly the insertion pass: the line after the first `[SimplexLogic]` section, or the lines unchanged |
| SvxConf.PatchConfig | includes/save-svx.php:11-82 | the script body between reading and writing the file computes the patch |
| SvxLines.KeyOfAssignment | includes/save-svx.php:21 | the key regex on `k=w` or `#k=w`, with w on one line, captures k |
| SvxLines.WrittenLineKey | includes/save-svx.php:21-41 | a line the script writes reads back with the key it wrote |
| SvxLines.PtyLineInfo | includes/save-svx.php:30-34 | both forms of the special-case line carry key `DTMF_CTRL_PTY` and no header |
| SvxLines.PlainLineInfo | includes/save-svx.php:41 | a plain replacement line carries the key it replaced and no header |
| SvxLines.KeyedLine | includes/save-svx.php:16-21 | a line with a key capture is no section header and is invisible to the insertion pass |
| SvxLines.LineOutKeepsSections | includes/save-svx.php:20-51 | rewriting a line creates and removes no section header, whatever the values |
| SvxLines.LineOutStable | includes/save-svx.php:20-51 | with one-line values, a rewritten line keeps its key, and rewriting it again in the same section gives the same line |
| SvxLines.NoKeyLines | includes/save-svx.php:21-51 | blank lines, headers and `##` comments have no key capture |
| SvxLines.SimplexHeaderNamed | includes/save-svx.php:62 | a line the insertion pass takes for `[SimplexLogic]` is also a header for the rewrite loop |
| SvxLines.PtyValueSingleLine | includes/save-svx.php:28 | the device value, posted or the default `/dev/shm/dtmf_ctrl`, is one line when every posted value is |
| SvxConfProperties.SectionOfPrefix | includes/save-svx.php:16-17 | `$bloque_actual` after i lines depends only on those lines |
| SvxConfProperties.SectionAroundInsert | includes/save-svx.php:16-17 | inserting a non-header line shifts the sections after it by one and changes none |
| SvxConfProperties.SectionRunsOn | includes/save-svx.php:16-17 | after a header, the section stays the one it names until the next header |
| SvxConfProperties.FirstPassCopies | includes/save-svx.php:16-51 | blank lines, section headers and `##` comments come out byte for byte, line ending included |
| SvxConfProperties.FirstPassGoverned | includes/save-svx.php:25-35 | a `DTMF_CTRL_PTY` line in section `SimplexLogic` becomes `DTMF_CTRL_PTY=v\n` when enabled and `#DTMF_CTRL_PTY=v\n` otherwise; a form without DTMF fields comments it out with `/dev/shm/dtmf_ctrl` |
| SvxConfProperties.DefaultPtyLine | includes/save-svx.php:27-33 | a form without the DTMF fields produces `#DTMF_CTRL_PTY=/dev/shm/dtmf_ctrl\n` |
| SvxConfProperties.FirstPassPlain | includes/save-svx.php:38-51 | any other key line becomes `<key as spelled in the file>=<value>\n`, uncommented, with the first eligible field's value; without an eligible field it is copied unchanged |
| SvxConfProperties.PlainMatchFirst | includes/save-svx.php:39-44 | the loop over `$_POST` stops at the first eligible field |
| SvxConfProperties.EnabledFieldsIgnored | includes/save-svx.php:40 | removing a field whose name ends in `_enabled` changes no plain replacement |
| SvxConfProperties.FirstPassKeepsSections | includes/save-svx.php:11-52 | the rewrite pass keeps every header where it was, and everything the insertion pass looks at |
| SvxConfProperties.FirstPassKeepsInfo | includes/save-svx.php:11-52 | with one-line values, the rewritten file reads back line by line as the original did |
| SvxConfProperties.FirstPassIdempotent | includes/save-svx.php:11-52 | with one-line values, rewriting the rewritten file changes nothing |
| SvxConfProperties.InsertPassNoHeader | includes/save-svx.php:60-81 | without a `[SimplexLogic]` header in any case, the insertion pass leaves the lines unchanged and invents no section |
| SvxConfProperties.InsertPassPlacement | includes/save-svx.php:60-77 | the insertion pass adds `DTMF_CTRL_PTY=v\n` once, after the first `[SimplexLogic]` header and the lines up to the next line starting with `[`, and moves nothing else |
| SvxConfProperties.FirstHeaderAt | includes/save-svx.php:60-62 | the insertion pass picks the first `[SimplexLogic]` header |
| SvxConfProperties.AnalyzeInsert | includes/save-svx.php:69 | the rewrite loop reads a file with one added line as the original with that line's reading added |
| SvxConfProperties.PatchLength | includes/save-svx.php:54-82 | the patch adds exactly one line when the insertion fires (no line is governed, the flag is `'1'` and a `[SimplexLogic]` header exists in any case); otherwise the number of lines is unchanged |
| SvxConfProperties.InsertedLineGoverned | includes/save-svx.php:25-69 | with one-line values, the line added after an exactly named `[SimplexLogic]` header is governed on the next save |
| SvxConfProperties.GrownLineKept | includes/save-svx.php:69-75 | with one-line values, every line other than the added one is an original line, read and sectioned as before |
| SvxConfProperties.GrownLineAdded | includes/save-svx.php:25-69 | with one-line values, the added line is rewritten to itself |
| SvxConfProperties.GrownStable | includes/save-svx.php:11-69 | with one-line values, a second rewrite loop leaves a grown file unchanged |
| SvxConfProperties.PatchIdempotent | includes/save-svx.php:11-82 | with one-line values, patching the patched lines again with the same form gives the same lines if and only if the insertion, when it fires, targets a first header named exactly `SimplexLogic` |
| SvxConfProperties.PatchIdempotentNoInsert | includes/save-svx.php:11-82 | when the insertion does not fire, patching the patched lines again changes nothing, whatever the spelling of the headers |
| SvxConfProperties.PatchIdempotentExactTarget | includes/save-svx.php:11-82 | when the first header the insertion finds is named exactly `SimplexLogic`, patching the patched lines again changes nothing |
| SvxConfProperties.UngovernedInsert | includes/save-svx.php:25 | a key line added under a header not named exactly `SimplexLogic` is never governed |
| SvxConfProperties.InsertedLineUngoverned | includes/save-svx.php:25-69 | with one-line values, the line added after a header spelled `[simplexlogic]` is not governed |
| SvxConfProperties.MisnamedHeaderGrowsEachSave | includes/save-svx.php:25-62 | with such a first header, nothing governed, the device enabled and one-line values, n saves of the form add exactly n `DTMF_CTRL_PTY` lines, for every n |
| SvxConfProperties.MisnamedSaveGrows | includes/save-svx.php:25-62 | with one-line values, one such save adds one line and leaves the misnamed header first, nothing governed, so the next save adds one again |
| SvxConfProperties.FirstSaveInserts | includes/save-svx.php:58-80 | where the first save puts the added line, after the header, which is kept |
| SvxConfProperties.MisnamedFirstSave | includes/save-svx.php:25-62 | with one-line values, after the first save the misnamed header is still there and still nothing is governed |
| PtyLookup.GetPtyPathFromConfig | dtmf-commands.php:11-44 | the scan with its section flag, `continue` and early `break` returns what the lookup specification gives, including the default for a missing file |
| PtyLookup.ScanFirstHit | dtmf-commands.php:18-40 | from any line on, the scan returns the trimmed value of the first hit, or the default when there is no hit |
| PtyLookup.PtyPathFirstHit | dtmf-commands.php:11-44 | the device is the trimmed capture of the first `DTMF_CTRL_PTY` line met while a `[SimplexLogic]` section is open, and `/dev/shm/dtmf_ctrl` without one or without a readable file |
| PtyLookup.CommentedNeverMatches | dtmf-commands.php:35 | a `#`-commented line never matches the lookup's regex |
| LookupLines.CaptureHasKey | dtmf-commands.php:35 | a line the lookup matches is a key line for the saver, with key `DTMF_CTRL_PTY` in some case |
| LookupLines.AssignValueCapture | dtmf-commands.php:35 | on `DTMF_CTRL_PTY=` + r the lookup captures r without the white space after `=` |
| LookupLines.WrittenLineRead | dtmf-commands.php:21-36 | the line the saver writes is no header for the lookup, and its capture trims to `trim(v)` |
| LookupLines.NamedSimplexHeader | includes/save-svx.php:62 | a header the rewrite loop names exactly `SimplexLogic` passes the insertion pass's case-insensitive header test, the same test the lookup applies at dtmf-commands.php line 23 |
| PatchLookup.InSimplexIsSection | dtmf-commands.php:18-32 | on a file whose headers are spelled exactly, the lookup's flag is set exactly inside a section named `SimplexLogic` |
| PatchLookup.LineScansAgree | dtmf-commands.php:23-32 | the two scripts see the same headers on one line |
| PatchLookup.FileScansAgree | dtmf-commands.php:23-32 | a file with exactly spelled `[SimplexLogic]` headers is read alike by both scripts |
| PatchLookup.HitIsGoverned | dtmf-commands.php:35 | a line where the lookup stops is governed by the saver |
| PatchLookup.GovernedIsHit | dtmf-commands.php:35 | a governed line with a readable value is where the lookup stops |
| PatchLookup.LookupOfGoverned | dtmf-commands.php:11-44 | when every governed line reads `DTMF_CTRL_PTY=v\n`, and there is one, the lookup returns `trim(v)` |
| PatchLookup.PatchKeepsExact | includes/save-svx.php:11-82 | with one-line values, both passes keep `[SimplexLogic]` headers and `DTMF_CTRL_PTY` keys spelled exactly |
| PatchLookup.GrownGoverned | includes/save-svx.php:25-69 | with one-line values, after an insertion, the added line is the only governed line |
| PatchLookup.KeptGoverned | includes/save-svx.php:30-31 | with one-line values and the flag `'1'`, every governed line of the rewritten file is `DTMF_CTRL_PTY=v\n` |
| PatchLookup.PatchGovernsPty | includes/save-svx.php:11-82 | with one-line values, the flag `'1'` and a `[SimplexLogic]` header, the patched file has a governed line, and every governed line is `DTMF_CTRL_PTY=v\n` |
| PatchLookup.LineOutOneLine | includes/save-svx.php:31-50 | with one-line values, each line the rewrite loop emits for a newline-terminated line is one newline-terminated line |
| PatchLookup.PatchShape | includes/save-svx.php:54-82 | the patch is the rewrite pass's output, with or without `DTMF_CTRL_PTY=v\n` inserted at one place |
| PatchLookup.PatchOneLines | includes/save-svx.php:11-82 | with one-line values, a file of newline-terminated lines stays so when patched |
| PatchLookup.PatchThenLookup | includes/save-svx.php:11-82 | after a patch with the flag `'1'`, the lookup on the patched lines returns the posted device path, trimmed |
| PatchLookup.SaveThenLookup | includes/save-svx.php:6-85 | the same holds on the file content: read with `file()`, patched, written with `implode("")`, read with `file()` again |
| PatchLookup.SavedIdempotent | includes/save-svx.php:6-85 | saving the same form twice writes the same file content as saving it once, when the old content is empty or ends in a newline, values are one line and the insertion, if it fires, targets a header named exactly `SimplexLogic` |
| PhpText.TrimIsInfix | dtmf-commands.php:20 | `trim()` removes a run of trim characters at each end and nothing else |
| PhpText.TrimIdempotent | dtmf-commands.php:36 | trimming twice is trimming once |
| PhpText.ReplaceLength | dtmf-commands.php:154-155 | `str_replace` changes the length by the token difference once per replacement |
| PhpText.ReplaceBySelf | dtmf-commands.php:154-155 | replacing a token by itself leaves the text unchanged |
| PhpText.ReplaceAbsent | dtmf-commands.php:154-155 | a text without the token is returned unchanged, with no replacement counted |
| PhpText.ReplaceSplit | dtmf-commands.php:154-155 | `str_replace` works piece by piece across a cut that no occurrence can straddle |
| PhpText.DigitsRoundTrip | dtmf-commands.php:159-165 | reading back the decimal spelling of a status gives the status |
| PhpText.FileLinesImplode | includes/save-svx.php:85 | `file()` of `implode("", ls)` gives back ls when every line ends in its one newline |
| PhpText.FileLinesTerminated | includes/save-svx.php:6 | `file()` of a content that is empty or ends in a newline gives newline-terminated lines |
| DtmfCommands.RenderPlain | dtmf-commands.php:154-155 | a template with neither placeholder is run unchanged |
| DtmfCommands.DeviceTokenSurvivesCode | dtmf-commands.php:154 | the first substitution leaves `{PTY_DEVICE}` alone |
| DtmfCommands.DefaultCodeStep | dtmf-commands.php:154 | on the default template, the first substitution puts the code between the quotes |
| DtmfCommands.DefaultDeviceStep | dtmf-commands.php:155 | the second substitution then runs over the inserted code as well as the template |
| DtmfCommands.DefaultTemplateRendered | dtmf-commands.php:154-155 | the default command pipes `printf '<code>'` into `sudo -u svxlink tee <device>`, with any `{PTY_DEVICE}` in the code also replaced by the device |
| DtmfCommands.FindMarker | dtmf-commands.php:164 | a sentinel found is a match of `/EXIT_CODE:(\d+)$/` |
| DtmfCommands.MarkerFound | dtmf-commands.php:164-166 | the regex matches at (i, j) exactly when the sentinel search finds (i, j); so there is at most one match, which `preg_match` reads and `preg_replace` removes |
| DtmfCommands.SentinelRoundTrip | dtmf-commands.php:159-168 | for the text the wrapper captures, the status read back is the command's exit status (saturated at `PHP_INT_MAX`), and the output is the command's own output, trimmed |
| DtmfCommands.SentinelMissing | dtmf-commands.php:163-168 | a null output, or output without the sentinel, reads as status 1 with the whole output trimmed |
| DtmfCommands.SendWithoutDevice | dtmf-commands.php:138-144 | without the device the result is a failure with no executed command, the same whatever the process would have printed |
| DtmfCommands.SendReportsStatus | dtmf-commands.php:154-185 | with the device, the rendered command is reported on both branches, success holds exactly for status 0, and a failure carries the status and the details of the trimmed output |
| DtmfCommands.SendWithoutSentinel | dtmf-commands.php:163-185 | output without the sentinel is a failure with status 1 that still reports the rendered command |
| DtmfCommands.SubmitGuard | dtmf-commands.php:280-292 | a command is reported as executed exactly when the trimmed code is neither `""` nor `"0"` and the device exists, and it is then the template rendered with the trimmed code; an empty code gets the warning and no command |
| DtmfCommands.WithoutCounts | dtmf-commands.php:264-267 | the filter drops every entry with the id, and keeps every other entry as often as it occurs |
| DtmfCommands.WithoutAppend | dtmf-commands.php:264-267 | the filter works entry by entry, so the kept entries stay in their original order |
| DtmfCommands.WithoutAbsent | dtmf-commands.php:264-267 | a list without the id comes back unchanged |
| DtmfCommands.DeleteShortcutMembers | dtmf-commands.php:261-267 | deleting keeps exactly the entries whose id differs from the trimmed id; an id of `""` or `"0"` leaves the list unchanged |
| DtmfPanel.PageConfig | dtmf-commands.php:227-230 | the request keeps the loaded execution command and its device is the one the lookup reads from the file |
| DtmfPanel.SaveThenSend | dtmf-commands.php:227-292 | after the saver has written the device, a posted code is rendered with that device, trimmed |

## Left out

- Reading and writing the files (`file()`, `file_put_contents` and the JSON load and save helpers with `chmod`/`chgrp`) are I/O. The lines, the content and the records are inputs and outputs instead. `file()` itself is modelled as `PhpText.FileLines`.
- `systemctl restart svxlink` and the confirmation page of the saver are process control and HTML.
- `shell_exec` is a foreign process call, so its captured text is an input (`None` for null). `escapeshellarg` and the `bash -c` wrapper are not modelled. `DtmfCommands.WrappedOutput` states what the wrapper's `echo` appends. `file_exists()` on the device is a boolean input.
- `getDTMFStatus()` (filesystem probing) is not modelled.
- Saving the execution command is not modelled. Adding a shortcut, with `uniqid()` and `date()`, is not modelled because it is non-deterministic.
- `htmlspecialchars`, the emoji and the exact wording of messages are presentation. `DtmfCommands.Message` keeps the case and the data each message shows.
- SvxConf.Enabled: the loose `== '1'` is modelled for `"1"` and for integer numeric strings such as `"01"`, `" 1"` and `"+1"`. Float numeric strings (`"1.0"`, `"1e0"`) compare equal in PHP but read as not enabled here.
- Array-valued form fields (`name[]=`) are not modelled: every posted value is a string.
- Shortcut ids are strings. An entry whose decoded `id` is missing or is not a string is not modelled.
- PatchLookup.PatchThenLookup assumes more than the save/lookup round trip needs on its face:
  - every `DTMF_CTRL_PTY` key is spelled exactly so. Otherwise a line spelled in another case is never governed, and the lookup, which ignores case, may stop at it first;
  - the device path contains no form feed. PCRE's `\s` skips it but `trim()` keeps it;
  - the device path does not trim to nothing;
  - every header that opens `[SimplexLogic]` is spelled exactly so. `SvxConfProperties.MisnamedHeaderGrowsEachSave` shows what happens otherwise.
  - no posted value, for any field, contains a newline. A value such as `x\n[Other]` written for a key inside `[SimplexLogic]` puts a new header into the file, and the lookup's section then ends before the device line.
- PatchLookup.SaveThenLookup additionally assumes the old content is empty or ends in a newline. A last line without one is joined to the line the insertion pass adds after it.
- PatchLookup.SavedIdempotent assumes the old content is empty or ends in a newline. Otherwise the line the first save inserts after an unterminated last line is joined to it, e.g. `FOO=1DTMF_CTRL_PTY=/dev/x`; the next save sees no governed line and inserts again. It also assumes one-line posted values, for the reason given for `SvxConfProperties.PatchIdempotent`, and because once `file()` re-splits the written content a plain value such as `x\n[Other]` becomes a header line of its own.
- DtmfPanel.SaveThenSend carries the same assumptions as `PatchLookup.SaveThenLookup`.
- SvxConfProperties.PatchIdempotent assumes one-line posted values. A written line `k=a\nb\n` no longer matches the key regex, whose `(.*)$` cannot cross the inner newline; so a written `DTMF_CTRL_PTY` line is no longer governed on the next pass and the insertion fires again.
- SvxConfProperties.PatchIdempotentNoInsert assumes one-line posted values, for the same reason.
- SvxConfProperties.PatchIdempotentExactTarget assumes one-line posted values, for the same reason.
- SvxConfProperties.FirstPassIdempotent assumes one-line posted values, for the same reason.
- SvxConfProperties.FirstPassKeepsInfo assumes one-line posted values, for the same reason.
- The integers of the source are unbounded here, except the `(int)` cast of the sentinel digits, which saturates at `PHP_INT_MAX` as on a 64-bit build.

=== FILE: dtmf_commands.dfy ===
/**
 * The DTMF control pipeline of dtmf-commands.php: sendDTMFCommand() (lines
 * 136-186) with the process it starts abstracted into the text it
 * captures, the guard that refuses an empty code (lines 281-292) and the
 * filter that deletes a shortcut (lines 263-267).
 */
module DtmfCommands {
  import opened Wrappers
  import opened PhpText

  const CodeToken := "{DTMF_CODE}"
  const DeviceToken := "{PTY_DEVICE}"


  /** What the wrapper prints before the exit status of the command. */
  const Marker := "EXIT_CODE:"

  /** PHP_INT_MAX on a 64-bit build. */
  const PhpIntMax := 0x7FFF_FFFF_FFFF_FFFF

  /** The two fields of dtmf_config.json the command uses. */
  datatype DtmfConfig = DtmfConfig(executionCommand: string, ptyPath: string)

  /* ---------- Rendering the execution command (lines 154-155) ---------- */

  /** Every {DTMF_CODE} becomes the code, then every {PTY_DEVICE} of that result becomes the device. */
  function Render(template: string, code: string, device: string): string {
    Replace(Replace(template, CodeToken, code), DeviceToken, device)
  }

  /** A template with neither placeholder is run as it is. */
  lemma RenderPlain(template: string, code: string, device: string)
    requires !Contains(template, CodeToken) && !Contains(template, DeviceToken)
    ensures Render(template, code, device) == template
  {
    ReplaceAbsent(template, CodeToken, code);
    ReplaceAbsent(template, DeviceToken, device);
  }

  /** {PTY_DEVICE} after the code placeholder is left alone by the first substitution. */
  lemma DeviceTokenSurvivesCode(rest: string, code: string)
    requires '{' !in rest
    ensures Replace(DeviceToken + rest, CodeToken, code) == DeviceToken + rest
  {
    var t := DeviceToken + rest;
    assert t[..|CodeToken|][1] != CodeToken[1];
    assert t[1..] == DeviceToken[1..] + rest;
    ReplaceLiteralPrefix(DeviceToken[1..] + rest, [], CodeToken, code);
    assert DeviceToken[1..] + rest + [] == DeviceToken[1..] + rest;
    assert [t[0]] + t[1..] == t;
  }

  /** The literal pieces of the default execution command around its two placeholders. */
  const TemplateHead := "printf '"
  const TemplateMid := "' | sudo -u svxlink tee "
  const TemplateTail := " >/dev/null"

  /**
   * The execution command loadDTMFConfig() falls back to when no
   * configuration file exists:
   * printf '{DTMF_CODE}' | sudo -u svxlink tee {PTY_DEVICE} >/dev/null
   */
  const DefaultTemplate := TemplateHead + (CodeToken + (TemplateMid + (DeviceToken + TemplateTail)))

  lemma TemplatePieces()
    ensures '{' !in TemplateHead && '{' !in TemplateMid && '{' !in TemplateTail
    ensures TemplateMid[0] !in DeviceToken[1..]
  {
  }

  /** The first substitution puts the code between the quotes and leaves {PTY_DEVICE}. */
  lemma DefaultCodeStep(code: string)
    ensures Replace(DefaultTemplate, CodeToken, code)
      == TemplateHead + (code + (TemplateMid + (DeviceToken + TemplateTail)))
  {
    TemplatePieces();
    var rest := TemplateMid + (DeviceToken + TemplateTail);
    ReplaceLiteralPrefix(TemplateHead, CodeToken + rest, CodeToken, code);
    ReplaceLeadingToken(CodeToken, rest, code);
    ReplaceLiteralPrefix(TemplateMid, DeviceToken + TemplateTail, CodeToken, code);
    DeviceTokenSurvivesCode(TemplateTail, code);
  }

  /** The second substitution runs over the code and then fills in the device. */
  lemma DefaultDeviceStep(code: string, device: string)
    ensures Replace(TemplateHead + (code + (TemplateMid + (DeviceToken + TemplateTail))), DeviceToken, device)
      == TemplateHead + (Replace(code, DeviceToken, device) + (TemplateMid + (device + TemplateTail)))
  {
    TemplatePieces();
    var rest := TemplateMid + (DeviceToken + TemplateTail);
    ReplaceLiteralPrefix(TemplateHead, code + rest, DeviceToken, device);
    assert rest[0] == TemplateMid[0];
    ReplaceSplit(code, rest, DeviceToken, device);
    ReplaceLiteralPrefix(TemplateMid, DeviceToken + TemplateTail, DeviceToken, device);
    ReplaceLeadingToken(DeviceToken, TemplateTail, device);
    ReplaceLiteralPrefix(TemplateTail, [], DeviceToken, device);
    assert TemplateTail + [] == TemplateTail;
  }

  /**
   * The default execution command writes the code to the device. The
   * code is pasted between the quotes as it is, except that a
   * {PTY_DEVICE} inside the code is replaced by the device as well,
   * since the second substitution runs over the first one's result.
   */
  lemma DefaultTemplateRendered(code: string, device: string)
    ensures Render(DefaultTemplate, code, device)
      == TemplateHead + (Replace(code, DeviceToken, device) + (TemplateMid + (device + TemplateTail)))
  {
    DefaultCodeStep(code);
    DefaultDeviceStep(code, device);
  }

  /* ---------- Reading the exit status back (lines 159-168) ---------- */

  /**
   * What shell_exec() captures from the wrapper of line 159 when the
   * command prints output and exits with status: the output, then the
   * line echo prints.
   */
  function WrappedOutput(output: string, status: nat): string {
    output + Marker + NatToDigits(status) + "\n"
  }

  /**
   * `/EXIT_CODE:(\d+)$/` matches at i with the digits running to j: `$`
   * holds at the end of the text or before a newline that ends it.
   */
  predicate MarkerMatchAt(s: string, i: nat, j: nat) {
    i + |Marker| < j <= |s| && s[i..i + |Marker|] == Marker
    && (forall k :: i + |Marker| <= k < j ==> IsDigit(s[k]))
    && (j == |s| || (j == |s| - 1 && s[j] == '\n'))
  }

  /** The number of digits just before index e. */
  function DigitsBefore(s: string, e: nat): (n: nat)
    requires e <= |s|
    ensures n <= e
    decreases e
  {
    if e > 0 && IsDigit(s[e - 1]) then 1 + DigitsBefore(s, e - 1) else 0
  }

  lemma {:induction false} DigitsBeforeSpec(s: string, e: nat)
    requires e <= |s|
    ensures forall k :: e - DigitsBefore(s, e) <= k < e ==> IsDigit(s[k])
    ensures e - DigitsBefore(s, e) == 0 || !IsDigit(s[e - DigitsBefore(s, e) - 1])
    decreases e
  {
    if e > 0 && IsDigit(s[e - 1]) {
      DigitsBeforeSpec(s, e - 1);
    }
  }

  lemma {:induction false} DigitsBeforeOver(s: string, a: nat, e: nat)
    requires a <= e <= |s|
    requires forall k :: a <= k < e ==> IsDigit(s[k])
    ensures DigitsBefore(s, e) == (e - a) + DigitsBefore(s, a)
    decreases e
  {
    if a < e {
      DigitsBeforeOver(s, a, e - 1);
    }
  }

  /**
   * Where the sentinel sits, found from the end: the digits run back from
   * the place `$` allows to the ':' of the marker.
   */
  function FindMarker(s: string): (m: Option<(nat, nat)>)
    ensures m.Some? ==> MarkerMatchAt(s, m.value.0, m.value.1)
  {
    var j := if |s| > 0 && s[|s| - 1] == '\n' then |s| - 1 else |s|;
    var d := j - DigitsBefore(s, j);
    DigitsBeforeSpec(s, j);
    if d < j && |Marker| <= d && s[d - |Marker|..d] == Marker then Some((d - |Marker|, j)) else None
  }

  /**
   * The regex matches in at most one place, and FindMarker finds it: the
   * digits of a match run to the end, so no second marker fits after it.
   * preg_match's first match and preg_replace's only match are this one.
   */
  lemma MarkerFound(s: string, i: nat, j: nat)
    ensures MarkerMatchAt(s, i, j) <==> FindMarker(s) == Some((i, j))
  {
    if MarkerMatchAt(s, i, j) {
      var b := i + |Marker|;
      assert s[j - 1] != '\n' by {
        assert IsDigit(s[j - 1]);
      }
      DigitsBeforeOver(s, b, j);
      assert s[b - 1] == Marker[|Marker| - 1];
      assert DigitsBefore(s, b) == 0;
    }
  }

  /** (int) on a digit string: PHP saturates at PHP_INT_MAX. */
  function PhpIntCast(n: nat): int {
    if n > PhpIntMax then PhpIntMax else n
  }

  /** The exit status and the trimmed output the function goes on with. */
  datatype Captured = Captured(exitCode: int, output: string)

  /**
   * Lines 163-168: status 1 unless the sentinel is found; if it is, its
   * digits are the status and the marker is cut out. shell_exec() gives
   * null (None here) when the command prints nothing or cannot be started,
   * and trim(null) is "".
   */
  function ReadExitCode(shellOutput: Option<string>): Captured {
    match shellOutput
    case None => Captured(1, "")
    case Some(s) =>
      match FindMarker(s)
      case None => Captured(1, Trim(s))
      case Some((i, j)) => Captured(PhpIntCast(DigitsValue(s[i + |Marker|..j])), Trim(s[..i] + s[j..]))
  }

  /** Whatever precedes the sentinel the wrapper appends, the status and the output come back. */
  lemma SentinelRoundTrip(output: string, status: nat)
    ensures ReadExitCode(Some(WrappedOutput(output, status))) == Captured(PhpIntCast(status), Trim(output))
  {
    var digits := NatToDigits(status);
    var s := WrappedOutput(output, status);
    var i, j := |output|, |s| - 1;
    assert s == output + Marker + digits + "\n";
    assert s[i..i + |Marker|] == Marker;
    assert forall k :: i + |Marker| <= k < j ==> s[k] == digits[k - i - |Marker|];
    assert MarkerMatchAt(s, i, j);
    MarkerFound(s, i, j);
    assert s[i + |Marker|..j] == digits;
    DigitsRoundTrip(status);
    assert s[..i] + s[j..] == output + "\n";
    RTrimDropsLast(output, '\n');
  }

  /** No output, or output without the sentinel, reads as status 1. */
  lemma SentinelMissing(s: string)
    requires forall i: nat, j: nat :: !MarkerMatchAt(s, i, j)
    ensures ReadExitCode(Some(s)) == Captured(1, Trim(s))
    ensures ReadExitCode(None) == Captured(1, "")
  {
  }

  /* ---------- sendDTMFCommand() (lines 136-186) ---------- */

  /**
   * The response text, by case: the device does not exist, the code was
   * delivered, the command failed with a status and the detail text, or
   * the posted code was empty.
   */
  datatype Message = PtyMissing(device: string) | Delivered(code: string) | ExecFailed(exitCode: int, details: string) | EnterCode

  /** The result record: 'success', 'message', 'executed_command'. */
  datatype SendResult = SendResult(success: bool, message: Message, executedCommand: Option<string>)

  /** Line 179: the output is shown only when empty() is false for it, so "0" is never shown. */
  function Details(output: string): string {
    if IsEmptyPhp(output) then "" else " Detalles: " + output
  }

  /**
   * sendDTMFCommand($command, $config). ptyExists is file_exists() on the
   * configured device; shellOutput is what shell_exec() returns for the
   * wrapped command.
   */
  function SendDtmfCommand(command: string, config: DtmfConfig, ptyExists: bool, shellOutput: Option<string>): SendResult {
    if !ptyExists then SendResult(false, PtyMissing(config.ptyPath), None)
    else
      var finalCmd := Render(config.executionCommand, command, config.ptyPath);
      var captured := ReadExitCode(shellOutput);
      if captured.exitCode == 0 then SendResult(true, Delivered(command), Some(finalCmd))
      else SendResult(false, ExecFailed(captured.exitCode, Details(captured.output)), Some(finalCmd))
  }

  /** With no device nothing is rendered or run: the result does not depend on any output. */
  lemma SendWithoutDevice(command: string, config: DtmfConfig, out1: Option<string>, out2: Option<string>)
    ensures var r := SendDtmfCommand(command, config, false, out1);
      !r.success && r.executedCommand == None && r.message == PtyMissing(config.ptyPath)
      && r == SendDtmfCommand(command, config, false, out2)
  {
  }

  /**
   * With the device present, the rendered command is reported on both
   * branches, success holds exactly when the command exited with 0, and a
   * failure carries the status and the command's own output, trimmed.
   */
  lemma SendReportsStatus(command: string, config: DtmfConfig, output: string, status: nat)
    ensures var r := SendDtmfCommand(command, config, true, Some(WrappedOutput(output, status)));
      r.executedCommand == Some(Render(config.executionCommand, command, config.ptyPath))
      && (r.success <==> status == 0)
      && (r.success ==> r.message == Delivered(command))
      && (!r.success ==> r.message == ExecFailed(PhpIntCast(status), Details(Trim(output))))
  {
    SentinelRoundTrip(output, status);
  }

  /** Output without the sentinel is a failure with status 1, and the command is still reported. */
  lemma SendWithoutSentinel(command: string, config: DtmfConfig, shellOutput: Option<string>)
    requires shellOutput.Some? ==> forall i: nat, j: nat :: !MarkerMatchAt(shellOutput.value, i, j)
    ensures var r := SendDtmfCommand(command, config, true, shellOutput);
      !r.success && r.executedCommand == Some(Render(config.executionCommand, command, config.ptyPath))
      && r.message == ExecFailed(1, Details(Trim(shellOutput.GetOr(""))))
  {
    if shellOutput.Some? {
      SentinelMissing(shellOutput.value);
    }
  }

  /* ---------- The submission of a code (lines 280-292) ---------- */

  datatype MessageKind = Success | Warning | Danger

  /** $messageType, $responseMessage and $executedCommand after the request. */
  datatype Response = Response(kind: MessageKind, message: Message, executedCommand: Option<string>)

  /** The posted code is trimmed; one empty() holds for is refused before anything is sent. */
  function SubmitDtmf(posted: string, config: DtmfConfig, ptyExists: bool, shellOutput: Option<string>): Response {
    var command := Trim(posted);
    if IsEmptyPhp(command) then Response(Warning, EnterCode, None)
    else
      var r := SendDtmfCommand(command, config, ptyExists, shellOutput);
      Response(if r.success then Success else Danger, r.message, r.executedCommand)
  }

  /**
   * A command is reported as executed exactly when the trimmed code is
   * neither "" nor "0" and the device exists, and it is then the template
   * rendered with the trimmed code. An empty code is refused whatever the
   * process would have printed.
   */
  lemma SubmitGuard(posted: string, config: DtmfConfig, ptyExists: bool, shellOutput: Option<string>)
    ensures var r := SubmitDtmf(posted, config, ptyExists, shellOutput);
      (r.executedCommand.Some? <==> !IsEmptyPhp(Trim(posted)) && ptyExists)
      && (r.executedCommand.Some? ==> r.executedCommand.value == Render(config.executionCommand, Trim(posted), config.ptyPath))
      && (IsEmptyPhp(Trim(posted)) ==> r == Response(Warning, EnterCode, None))
      && (r.kind == Success <==> !IsEmptyPhp(Trim(posted)) && ptyExists && ReadExitCode(shellOutput).exitCode == 0)
  {
  }

  /* ---------- Deleting a shortcut (lines 260-267) ---------- */

  /** One entry of dtmf_custom_commands.json. */
  datatype Shortcut = Shortcut(id: string, name: string, code: string, createdAt: string)

  /** array_values(array_filter(...)): the entries whose id is not the given one, re-indexed. */
  function Without(cmds: seq<Shortcut>, id: string): seq<Shortcut> {
    if |cmds| == 0 then []
    else (if cmds[0].id != id then [cmds[0]] else []) + Without(cmds[1..], id)
  }

  /** The id is trimmed; an id empty() holds for deletes nothing. */
  function DeleteShortcut(cmds: seq<Shortcut>, posted: string): seq<Shortcut> {
    var id := Trim(posted);
    if IsEmptyPhp(id) then cmds else Without(cmds, id)
  }

  /** The filter keeps each entry with another id as often as it occurs, and drops every entry with the id. */
  lemma {:induction false} WithoutCounts(cmds: seq<Shortcut>, id: string)
    ensures forall x :: multiset(Without(cmds, id))[x] == if x.id == id then 0 else multiset(cmds)[x]
  {
    if |cmds| > 0 {
      WithoutCounts(cmds[1..], id);
      assert cmds == [cmds[0]] + cmds[1..];
    }
  }

  /** The filter works entry by entry, so it keeps the order of what it keeps. */
  lemma {:induction false} WithoutAppend(a: seq<Shortcut>, b: seq<Shortcut>, id: string)
    ensures Without(a + b, id) == Without(a, id) + Without(b, id)
  {
    if |a| > 0 {
      assert (a + b)[1..] == a[1..] + b;
      WithoutAppend(a[1..], b, id);
    } else {
      assert a + b == b;
    }
  }

  /** A list without the id comes back as it was. */
  lemma {:induction false} WithoutAbsent(cmds: seq<Shortcut>, id: string)
    requires forall i :: 0 <= i < |cmds| ==> cmds[i].id != id
    ensures Without(cmds, id) == cmds
  {
    if |cmds| > 0 {
      WithoutAbsent(cmds[1..], id);
    }
  }

  /**
   * Deleting keeps exactly the entries whose id differs from the trimmed
   * posted id, unless that id is "" or "0", which leaves the list as it is.
   */
  lemma DeleteShortcutMembers(cmds: seq<Shortcut>, posted: string)
    ensures IsEmptyPhp(Trim(posted)) ==> DeleteShortcut(cmds, posted) == cmds
    ensures !IsEmptyPhp(Trim(posted)) ==>
      forall x :: x in DeleteShortcut(cmds, posted) <==> x in cmds && x.id != Trim(posted)
  {
    WithoutCounts(cmds, Trim(posted));
  }
}

=== FILE: dtmf_panel.dfy ===
/**
 * How the DTMF page puts the pieces together: on a request that does not
 * save the execution command, the device path of the loaded configuration
 * is replaced by the one getPTYPathFromConfig() reads from svxlink.conf
 * (dtmf-commands.php lines 227-230), and a posted code is then rendered
 * into that configuration.
 */
module DtmfPanel {
  import opened Wrappers
  import opened PhpText
  import opened SvxConf
  import opened SvxLines
  import opened SvxConfProperties
  import opened PtyLookup
  import opened PatchLookup
  import opened DtmfCommands

  /** The configuration the request works with: the loaded one with the device read from svxlink.conf. */
  function PageConfig(loaded: DtmfConfig, file: Option<seq<string>>): (c: DtmfConfig)
    ensures c.executionCommand == loaded.executionCommand
    ensures c.ptyPath == PtyPath(file)
  {
    loaded.(ptyPath := PtyPath(file))
  }

  /**
   * After the configuration form saved DTMF_CTRL_PTY with the enable flag
   * '1', a code posted on the DTMF page is rendered with the posted device
   * path, trimmed, under the conditions of SaveThenLookup.
   */
  lemma SaveThenSend(content: string, post: Request, loaded: DtmfConfig, posted: string, shellOutput: Option<string>)
    requires |content| == 0 || content[|content| - 1] == '\n'
    requires SingleLineValues(post) && Enabled(post)
    requires '\U{0C}' !in PtyValue(post) && Trim(PtyValue(post)) != []
    requires ExactSimplexHeaders(FileLines(content)) && ExactPtyKeys(Analyze(FileLines(content)))
    requires exists i :: 0 <= i < |FileLines(content)| && MarkOf(FileLines(content)[i]).simplex
    requires !IsEmptyPhp(Trim(posted))
    ensures var config := PageConfig(loaded, Some(FileLines(SavedContent(content, post))));
      SubmitDtmf(posted, config, true, shellOutput).executedCommand
        == Some(Render(loaded.executionCommand, Trim(posted), Trim(PtyValue(post))))
  {
    SaveThenLookup(content, post);
  }
}

=== FILE: lookup_lines.dfy ===
/**
 * How the lookup's regular expressions read single lines that the patch
 * engine writes or keeps: the facts that tie the scan of dtmf-commands.php
 * to the rewrite loop of includes/save-svx.php one line at a time.
 */
module LookupLines {
  import opened Wrappers
  import opened PhpText
  import opened SvxConf
  import opened SvxLines
  import opened PtyLookup

  /** When the value regex matches from k on, no newline precedes the last character. */
  lemma {:induction false} ValueCaptureSingleLine(t: string, i: nat, k: nat)
    requires i <= k <= |t| && ValueCapture(t, i, k).Some?
    ensures forall j :: k <= j < |t| - 1 ==> t[j] != '\n'
    decreases k
  {
    if TailCapture(t, k).Some? {
      RunSpec(t, k, NotNewline);
    } else {
      ValueCaptureSingleLine(t, i, k - 1);
    }
  }

  /** The letters of DTMF_CTRL_PTY, in either case, are key characters. */
  lemma KeyLettersAreWord(w: string)
    requires EqualsIgnoreCase(w, PtyKey)
    ensures forall i :: 0 <= i < |w| ==> IsWordChar(w[i])
  {
    forall i | 0 <= i < |w| ensures IsWordChar(w[i]) {
      assert Lower(w[i]) == Lower(PtyKey[i]);
    }
  }

  /** The key regex of the rewrite loop, read off its parts for a line that starts without '#'. */
  lemma KeyOfParts(t: string, p: nat, e: nat, q: nat)
    requires |t| > 0 && t[0] != '#'
    requires p < e <= q < |t| && t[q] == '='
    requires Run(t, 0, Space) == p && Run(t, p, Word) == e - p && Run(t, e, Space) == q - e
    requires ValueTailMatches(t, q + 1)
    ensures KeyOf(t) == Some(t[p..e])
  {
  }

  /** Where the lookup's regex finds the key of a line it matches. */
  lemma CaptureKeyAt(t: string)
    requires PtyCapture(t).Some?
    ensures var p := Run(t, 0, Space); var e := p + |PtyKey|;
      e <= |t| && EqualsIgnoreCase(t[p..e], PtyKey)
  {
  }

  /** Where the lookup's regex finds the '=' and the value of a line it matches. */
  lemma CaptureValueAt(t: string, e: nat)
    requires PtyCapture(t).Some?
    requires e == Run(t, 0, Space) + |PtyKey| && e <= |t|
    ensures var q := e + Run(t, e, Space);
      q < |t| && t[q] == '=' && ValueCapture(t, q + 1, q + 1 + Run(t, q + 1, Space)) == PtyCapture(t)
      && ValueTailMatches(t, q + 1)
  {
    var q := e + Run(t, e, Space);
    ValueCaptureSingleLine(t, q + 1, q + 1 + Run(t, q + 1, Space));
  }

  /** A line shaped like DTMF_CTRL_PTY (in some case), white space, '=' and a one-line value has that key. */
  lemma KeyFromParts(t: string, p: nat, e: nat, q: nat)
    requires p == Run(t, 0, Space) && e == p + |PtyKey| && e <= q < |t|
    requires EqualsIgnoreCase(t[p..e], PtyKey)
    requires q == e + Run(t, e, Space) && t[q] == '=' && ValueTailMatches(t, q + 1)
    ensures KeyOf(t) == Some(t[p..e])
  {
    var w := t[p..e];
    assert t[0] != '#' by {
      if p == 0 {
        assert Lower(w[0]) == Lower(PtyKey[0]);
      }
    }
    KeyLettersAreWord(w);
    assert forall m :: p <= m < e ==> t[m] == w[m - p];
    RunOver(t, p, e, Word);
    if e < q {
      RunSpec(t, e, Space);
    }
    RunStops(t, e, Word);
    KeyOfParts(t, p, e, q);
  }

  /**
   * A line the lookup matches is a key line for the rewrite loop, and its
   * key is DTMF_CTRL_PTY in some case.
   */
  lemma CaptureHasKey(t: string)
    requires PtyCapture(t).Some?
    ensures KeyOf(t).Some? && EqualsIgnoreCase(KeyOf(t).value, PtyKey)
  {
    var p := Run(t, 0, Space);
    var e := p + |PtyKey|;
    CaptureKeyAt(t);
    CaptureValueAt(t, e);
    KeyFromParts(t, p, e, e + Run(t, e, Space));
  }

  /** The value regex takes everything from k to the end of a line with no newline there. */
  lemma TailToEnd(t: string, i: nat, k: nat)
    requires i <= k < |t| && '\n' !in t[k..]
    ensures ValueCapture(t, i, k) == Some(t[k..])
  {
    assert forall j :: k <= j < |t| ==> t[j] == t[k..][j - k];
    RunOver(t, k, |t|, NotNewline);
    assert Run(t, |t|, NotNewline) == 0;
    assert TailCapture(t, k) == Some(t[k..|t|]);
    assert t[k..|t|] == t[k..];
  }

  /** On "DTMF_CTRL_PTY=" + r the lookup's regex reduces to its value part after the '='. */
  lemma AssignCaptureAt(r: string)
    ensures var t := PtyKey + "=" + r;
      PtyCapture(t) == ValueCapture(t, |PtyKey| + 1, |PtyKey| + 1 + Run(t, |PtyKey| + 1, Space))
  {
    var t := PtyKey + "=" + r;
    var e := |PtyKey|;
    RunStops(t, 0, Space);
    assert t[..e] == PtyKey;
    assert t[e] == '=';
    RunStops(t, e, Space);
  }

  /** White space skipped before a value that trims to something stops short of the value's end. */
  lemma SpaceRunInside(t: string, i: nat)
    requires i <= |t| && '\U{0C}' !in t[i..] && LTrim(t[i..]) != []
    ensures i + Run(t, i, Space) < |t|
    ensures forall j :: i <= j < i + Run(t, i, Space) ==> IsTrimChar(t[j])
  {
    var r := t[i..];
    LTrimSpec(r);
    var j := |r| - |LTrim(r)|;
    assert !IsTrimChar(r[j]) && r[j] != '\U{0C}' && t[i + j] == r[j];
    RunSpec(t, i, Space);
    assert forall k :: i <= k < i + Run(t, i, Space) ==> t[k] == r[k - i];
  }

  /** Leading white space that trim() would strip anyway does not change the trimmed value. */
  lemma TrimAfterSpace(r: string, m: nat)
    requires m < |r| && !IsTrimChar(r[|r| - 1])
    requires forall j :: 0 <= j < m ==> IsTrimChar(r[j])
    ensures Trim(r[m..]) == LTrim(r)
  {
    assert r == r[..m] + r[m..];
    LTrimSkip(r[..m], r[m..]);
    RTrimNoop(r[m..]);
  }

  /** rtrim() of a value ends in a kept character, so it trims to the same thing. */
  lemma RTrimmedValue(v: string)
    requires Trim(v) != []
    ensures RTrim(v) != [] && !IsTrimChar(RTrim(v)[|RTrim(v)| - 1])
    ensures Trim(v) == LTrim(RTrim(v))
  {
    RTrimSpec(v);
    assert LTrim([]) == [];
  }

  /**
   * On "DTMF_CTRL_PTY=" + r, with r a one-line value that trims to
   * something, the lookup captures r without the white space after '=',
   * and that white space is all trim() characters.
   */
  lemma AssignValueCapture(r: string)
    requires '\n' !in r && '\U{0C}' !in r && LTrim(r) != []
    ensures var m := Run(PtyKey + "=" + r, |PtyKey| + 1, Space);
      m < |r| && PtyCapture(PtyKey + "=" + r) == Some(r[m..])
      && forall j :: 0 <= j < m ==> IsTrimChar(r[j])
  {
    var t := PtyKey + "=" + r;
    var i := |PtyKey| + 1;
    AssignCaptureAt(r);
    assert t[i..] == r;
    SpaceRunInside(t, i);
    var m := Run(t, i, Space);
    assert t[i + m..] == r[m..];
    TailToEnd(t, i, i + m);
    assert forall j :: 0 <= j < m ==> r[j] == t[i + j];
  }

  /**
   * How the lookup reads the line "DTMF_CTRL_PTY=v\n" the patch writes: no
   * header, and a capture that trims to trim(v) when v is one line, has no
   * form feed (which \s skips but trim() keeps) and does not trim to nothing.
   */
  lemma WrittenLineRead(v: string)
    requires '\n' !in v && '\U{0C}' !in v && Trim(v) != []
    ensures var rd := Read(PtyAssign(v));
      !rd.simplex && !rd.header && rd.capture.Some? && Trim(rd.capture.value) == Trim(v)
  {
    var pre := PtyKey + "=";
    assert PtyAssign(v) == pre + v + "\n";
    TrimWritten(pre, v);
    var r := RTrim(v);
    RTrimmedValue(v);
    RTrimSpec(v);
    assert '\n' !in r && '\U{0C}' !in r by {
      assert forall j :: 0 <= j < |r| ==> r[j] == v[j];
    }
    var t := pre + r;
    assert t == PtyKey + "=" + r;
    NotBracketText(t);
    WrittenCapture(r);
  }

  /** The capture of "DTMF_CTRL_PTY=r", r ending in a character trim() keeps, trims to ltrim(r). */
  lemma WrittenCapture(r: string)
    requires '\n' !in r && '\U{0C}' !in r && r != [] && !IsTrimChar(r[|r| - 1]) && LTrim(r) != []
    ensures var c := PtyCapture(PtyKey + "=" + r); c.Some? && Trim(c.value) == LTrim(r)
  {
    AssignValueCapture(r);
    var m := Run(PtyKey + "=" + r, |PtyKey| + 1, Space);
    TrimAfterSpace(r, m);
  }

  /** A header named exactly SimplexLogic opens [SimplexLogic] for both scans. */
  lemma NamedSimplexHeader(line: string)
    requires Classify(line).header == Some(SimplexSection)
    ensures MarkOf(line).simplex
  {
    var t := Trim(line);
    var seg := t[..Run(t, 0, NotNewline)];
    var k := LastCloseBracket(seg[1..]).value;
    assert seg[1..][..k] == SimplexSection;
    assert seg[1..][k] == ']';
    var n := |SimplexHeader|;
    assert forall i :: 0 <= i < n ==> t[..n][i] == SimplexHeader[i] by {
      assert forall i :: 1 <= i < n - 1 ==> t[i] == seg[1..][..k][i - 1];
    }
  }
}

=== FILE: patch_lookup.dfy ===
/**
 * The two halves of the panel read the same file: includes/save-svx.php
 * writes DTMF_CTRL_PTY into [SimplexLogic] and getPTYPathFromConfig() in
 * dtmf-commands.php reads it back. This module proves that, under the
 * conditions stated on PatchThenLookup, the lookup on a patched file
 * returns the posted device path, trimmed.
 */
module PatchLookup {
  import opened Wrappers
  import opened PhpText
  import opened SvxConf
  import opened SvxLines
  import opened SvxConfProperties
  import opened PtyLookup
  import opened LookupLines

  /** Every key the rewrite loop reads that is DTMF_CTRL_PTY in some case is spelled exactly so. */
  predicate ExactPtyKeys(infos: seq<LineInfo>) {
    forall i :: 0 <= i < |infos| && infos[i].key.Some? && EqualsIgnoreCase(infos[i].key.value, PtyKey) ==>
      infos[i].key == Some(PtyKey)
  }

  /** The lookup and the rewrite loop see the same headers, and the same [SimplexLogic] ones. */
  predicate ScansAgree(rs: seq<Reading>, infos: seq<LineInfo>) {
    |rs| == |infos| &&
    forall i :: 0 <= i < |rs| ==>
      rs[i].header == infos[i].header.Some? && (rs[i].simplex <==> infos[i].header == Some(SimplexSection))
  }

  /** When the scans agree, the lookup's flag is set exactly inside a section named SimplexLogic. */
  lemma {:induction false} InSimplexIsSection(rs: seq<Reading>, infos: seq<LineInfo>, i: nat)
    requires ScansAgree(rs, infos) && i <= |rs|
    ensures InSimplexAt(rs, i) <==> Section(infos, i) == Some(SimplexSection)
  {
    if i > 0 {
      InSimplexIsSection(rs, infos, i - 1);
    }
  }

  /** One line read by both scans, when a [SimplexLogic] header in it is spelled exactly so. */
  lemma LineScansAgree(line: string)
    requires MarkOf(line).simplex ==> Classify(line).header == Some(SimplexSection)
    ensures Read(line).header == Classify(line).header.Some?
    ensures Read(line).simplex <==> Classify(line).header == Some(SimplexSection)
  {
    if Classify(line).header == Some(SimplexSection) {
      NamedSimplexHeader(line);
    }
  }

  /** A file whose [SimplexLogic] headers are spelled exactly so is read alike by both scans. */
  lemma FileScansAgree(ls: seq<string>)
    requires ExactSimplexHeaders(ls)
    ensures ScansAgree(Readings(ls), Analyze(ls))
  {
    var rs, infos := Readings(ls), Analyze(ls);
    forall i | 0 <= i < |ls|
      ensures rs[i].header == infos[i].header.Some? && (rs[i].simplex <==> infos[i].header == Some(SimplexSection))
    {
      assert rs[i] == Read(ls[i]) && infos[i] == Classify(ls[i]);
      LineScansAgree(ls[i]);
    }
  }

  /** Among hits, there is a first one. */
  lemma {:induction false} FirstHit(rs: seq<Reading>, g: nat)
    requires g < |rs| && Hit(rs, g)
    ensures exists h :: 0 <= h <= g && Hit(rs, h) && forall k :: 0 <= k < h ==> !Hit(rs, k)
    decreases g
  {
    if exists k :: 0 <= k < g && Hit(rs, k) {
      var k :| 0 <= k < g && Hit(rs, k);
      FirstHit(rs, k);
    }
  }

  /** A line the lookup stops at is governed by the rewrite loop. */
  lemma HitIsGoverned(ls: seq<string>, i: nat)
    requires ExactSimplexHeaders(ls) && ExactPtyKeys(Analyze(ls))
    requires i < |ls| && Hit(Readings(ls), i)
    ensures Governed(Analyze(ls), i)
  {
    var rs, infos := Readings(ls), Analyze(ls);
    FileScansAgree(ls);
    InSimplexIsSection(rs, infos, i);
    assert rs[i] == Read(ls[i]) && infos[i] == Classify(ls[i]);
    CaptureHasKey(Trim(ls[i]));
    assert infos[i].header.None?;
    assert Section(infos, i + 1) == Section(infos, i);
  }

  /** A governed line that the lookup can read a value from is where the lookup stops. */
  lemma GovernedIsHit(ls: seq<string>, i: nat)
    requires ExactSimplexHeaders(ls)
    requires i < |ls| && Governed(Analyze(ls), i)
    requires !Read(ls[i]).simplex && !Read(ls[i]).header && Read(ls[i]).capture.Some?
    ensures Hit(Readings(ls), i)
  {
    var rs, infos := Readings(ls), Analyze(ls);
    FileScansAgree(ls);
    InSimplexIsSection(rs, infos, i);
    assert rs[i] == Read(ls[i]);
    KeyedLine(ls[i]);
    assert infos[i] == Classify(ls[i]);
    assert Section(infos, i + 1) == Section(infos, i);
  }

  /**
   * On any file whose governed DTMF_CTRL_PTY lines, of which there is at
   * least one, all read "DTMF_CTRL_PTY=v\n", the lookup returns trim(v).
   */
  lemma LookupOfGoverned(ls: seq<string>, v: string)
    requires ExactSimplexHeaders(ls) && ExactPtyKeys(Analyze(ls)) && HasGoverned(Analyze(ls))
    requires forall i :: 0 <= i < |ls| && Governed(Analyze(ls), i) ==> ls[i] == PtyAssign(v)
    requires '\n' !in v && '\U{0C}' !in v && Trim(v) != []
    ensures PtyPath(Some(ls)) == Trim(v)
  {
    var rs, infos := Readings(ls), Analyze(ls);
    WrittenLineRead(v);
    GovernedBeforeExists(infos, |infos|);
    var g :| 0 <= g < |infos| && Governed(infos, g);
    assert rs[g] == Read(ls[g]);
    GovernedIsHit(ls, g);
    FirstHit(rs, g);
    var h :| 0 <= h <= g && Hit(rs, h) && forall k :: 0 <= k < h ==> !Hit(rs, k);
    HitIsGoverned(ls, h);
    assert rs[h] == Read(ls[h]);
    PtyPathFirstHit(ls);
  }

  /** A line that opens no [SimplexLogic] header, added anywhere, keeps the headers exact. */
  lemma ExactAfterInsert(out: seq<string>, j: nat, x: string)
    requires ExactSimplexHeaders(out) && j <= |out| && !MarkOf(x).simplex
    ensures ExactSimplexHeaders(out[..j] + [x] + out[j..])
  {
    var grown := out[..j] + [x] + out[j..];
    forall i | 0 <= i < |grown| && MarkOf(grown[i]).simplex
      ensures Classify(grown[i]).header == Some(SimplexSection)
    {
      if i < j {
        assert grown[i] == out[i];
      } else {
        assert grown[i] == out[i - 1];
      }
    }
  }

  /** The DTMF_CTRL_PTY key added anywhere keeps the keys exact. */
  lemma ExactKeysAfterInsert(infos: seq<LineInfo>, j: nat)
    requires ExactPtyKeys(infos) && j <= |infos|
    ensures ExactPtyKeys(infos[..j] + [LineInfo(None, Some(PtyKey))] + infos[j..])
  {
    var grown := infos[..j] + [LineInfo(None, Some(PtyKey))] + infos[j..];
    assert forall i :: 0 <= i < |grown| && i != j ==> grown[i] == infos[if i < j then i else i - 1];
  }

  /** Both passes of the patch keep [SimplexLogic] headers and DTMF_CTRL_PTY keys spelled exactly. */
  lemma PatchKeepsExact(ls: seq<string>, post: Request)
    requires SingleLineValues(post) && ExactSimplexHeaders(ls) && ExactPtyKeys(Analyze(ls))
    ensures ExactSimplexHeaders(Patch(ls, post)) && ExactPtyKeys(Analyze(Patch(ls, post)))
  {
    var out := FirstPass(ls, post);
    FirstPassKeepsInfo(ls, post);
    FirstPassKeepsSections(ls, post);
    forall i | 0 <= i < |out| && MarkOf(out[i]).simplex
      ensures Classify(out[i]).header == Some(SimplexSection)
    {
      assert Marks(out)[i] == MarkOf(out[i]) && Marks(ls)[i] == MarkOf(ls[i]);
      assert Analyze(out)[i] == Classify(out[i]) && Analyze(ls)[i] == Classify(ls[i]);
    }
    var marks := Marks(out);
    if !HasGoverned(Analyze(ls)) && Enabled(post) && FindSimplexHeader(marks, 0).Some? {
      var h := FindSimplexHeader(marks, 0).value;
      var j := SectionEnd(marks, h + 1);
      var x := PtyAssign(PtyValue(post));
      assert Patch(ls, post) == out[..j] + [x] + out[j..];
      PtyLineMarks(post);
      assert PtyLine(post) == x;
      ExactAfterInsert(out, j, x);
      GrownInfo(out, post, j);
      ExactKeysAfterInsert(Analyze(out), j);
    } else {
      assert Patch(ls, post) == out;
    }
  }

  /** Adding a headerless line to a file with no governed line leaves every other line ungoverned. */
  lemma OnlyInsertedGoverned(infos: seq<LineInfo>, j: nat, x: LineInfo)
    requires x.header.None? && !HasGoverned(infos) && j <= |infos|
    ensures forall i :: 0 <= i <= |infos| && i != j ==> !Governed(infos[..j] + [x] + infos[j..], i)
  {
    var gi := infos[..j] + [x] + infos[j..];
    GovernedBeforeExists(infos, |infos|);
    forall i | 0 <= i <= |infos| && i != j ensures !Governed(gi, i) {
      if i < j {
        SectionAroundInsert(infos, j, x, i + 1);
        assert gi[i] == infos[i] && !Governed(infos, i);
      } else {
        SectionAroundInsert(infos, j, x, i);
        assert gi[i] == infos[i - 1] && !Governed(infos, i - 1);
      }
    }
  }

  /**
   * A file without a governed line, grown by the insertion pass after an
   * exactly named [SimplexLogic] header, has exactly one governed line: the
   * added one.
   */
  lemma GrownGoverned(out: seq<string>, post: Request, h: nat, j: nat)
    requires SingleLineValues(post) && Enabled(post) && !HasGoverned(Analyze(out))
    requires h < j <= |out| && Analyze(out)[h].header == Some(SimplexSection)
    requires forall k :: h < k < j ==> !MarkOf(out[k]).opens
    ensures var grown := out[..j] + [PtyAssign(PtyValue(post))] + out[j..];
      HasGoverned(Analyze(grown)) && forall i :: 0 <= i < |grown| && Governed(Analyze(grown), i) ==> i == j
  {
    InsertedLineGoverned(out, post, h, j);
    GrownInfo(out, post, j);
    OnlyInsertedGoverned(Analyze(out), j, LineInfo(None, Some(PtyKey)));
  }

  /** When the rewrite loop already governs a line, every governed line is the enabled assignment. */
  lemma KeptGoverned(ls: seq<string>, post: Request)
    requires SingleLineValues(post) && Enabled(post)
    ensures forall i :: 0 <= i < |ls| && Governed(Analyze(FirstPass(ls, post)), i) ==>
      FirstPass(ls, post)[i] == PtyAssign(PtyValue(post))
  {
    var out := FirstPass(ls, post);
    FirstPassKeepsInfo(ls, post);
    forall i | 0 <= i < |out| && Governed(Analyze(out), i) ensures out[i] == PtyAssign(PtyValue(post)) {
      FirstPassGoverned(ls, post, i);
    }
  }

  /** Where the insertion pass of the patch puts the line when no line is governed yet. */
  lemma FirstSimplexHeader(ls: seq<string>, i0: nat) returns (h: nat)
    requires i0 < |ls| && MarkOf(ls[i0]).simplex
    ensures h < |ls| && MarkOf(ls[h]).simplex && forall k :: 0 <= k < h ==> !MarkOf(ls[k]).simplex
  {
    var marks := Marks(ls);
    assert marks[i0].simplex;
    h := FindSimplexHeader(marks, 0).value;
    assert forall k :: 0 <= k <= h ==> marks[k] == MarkOf(ls[k]);
  }

  /** The file has a governed DTMF_CTRL_PTY line, and every governed line is "DTMF_CTRL_PTY=v\n". */
  predicate GovernsValue(ls: seq<string>, v: string) {
    HasGoverned(Analyze(ls)) && forall i :: 0 <= i < |ls| && Governed(Analyze(ls), i) ==> ls[i] == PtyAssign(v)
  }

  /**
   * With the device enabled and a [SimplexLogic] header present, the
   * patched file has a governed DTMF_CTRL_PTY line, and every governed line
   * is "DTMF_CTRL_PTY=v\n" for the posted v.
   */
  lemma PatchGovernsPty(ls: seq<string>, post: Request)
    requires SingleLineValues(post) && Enabled(post) && ExactSimplexHeaders(ls)
    requires exists i :: 0 <= i < |ls| && MarkOf(ls[i]).simplex
    ensures GovernsValue(Patch(ls, post), PtyValue(post))
  {
    var out := FirstPass(ls, post);
    FirstPassKeepsInfo(ls, post);
    var x := PtyAssign(PtyValue(post));
    if HasGoverned(Analyze(ls)) {
      assert Patch(ls, post) == out;
      KeptGoverned(ls, post);
      assert GovernsValue(out, PtyValue(post));
    } else {
      var i0 :| 0 <= i0 < |ls| && MarkOf(ls[i0]).simplex;
      var h := FirstSimplexHeader(ls, i0);
      FirstSaveInserts(ls, post, h);
      var j := SectionEnd(Marks(out), h + 1);
      var grown := out[..j] + [x] + out[j..];
      assert Analyze(out)[h] == Classify(ls[h]);
      GrownGoverned(out, post, h, j);
      assert grown[j] == x;
      assert GovernsValue(grown, PtyValue(post));
    }
  }

  /** The rewrite loop emits one newline-terminated line for each such line it reads. */
  lemma LineOutOneLine(line: string, section: Option<string>, post: Request)
    requires OneLine(line) && SingleLineValues(post)
    ensures OneLine(LineOut(line, Classify(line).key, section, post))
  {
    match Classify(line).key
    case None =>
    case Some(k) =>
      KeyIsKey(Trim(line));
      assert '\n' !in k by {
        assert forall i :: 0 <= i < |k| ==> IsWordChar(k[i]);
      }
      PtyValueSingleLine(post);
      if k == PtyKey && section == Some(SimplexSection) {
        var v := PtyValue(post);
        OneLineOf(PtyKey + "=" + v);
        OneLineOf("#" + PtyKey + "=" + v);
        assert PtyAssign(v) == PtyKey + "=" + v + "\n";
        assert "#" + PtyAssign(v) == "#" + PtyKey + "=" + v + "\n";
      } else if PlainMatch(post, k).Some? {
        var v := PlainMatch(post, k).value;
        OneLineOf(k + "=" + v);
      }
  }

  /** The rewrite loop keeps one newline per line. */
  lemma FirstPassOneLines(ls: seq<string>, post: Request)
    requires NewlineTerminated(ls) && SingleLineValues(post)
    ensures NewlineTerminated(FirstPass(ls, post))
  {
    var out := FirstPass(ls, post);
    forall i | 0 <= i < |out| ensures OneLine(out[i]) {
      LineOutOneLine(ls[i], Section(Analyze(ls), i + 1), post);
      assert Analyze(ls)[i] == Classify(ls[i]);
    }
  }

  /** "DTMF_CTRL_PTY=v\n" is one line when v is. */
  lemma AssignOneLine(v: string)
    requires '\n' !in v
    ensures OneLine(PtyAssign(v))
  {
    assert '\n' !in PtyKey + "=" + v by {
      assert forall i :: 0 <= i < |PtyKey| + 1 ==> (PtyKey + "=" + v)[i] == (PtyKey + "=")[i];
    }
    OneLineOf(PtyKey + "=" + v);
  }

  /** Adding one line anywhere keeps one newline per line. */
  lemma GrownOneLines(out: seq<string>, j: nat, x: string)
    requires NewlineTerminated(out) && OneLine(x) && j <= |out|
    ensures NewlineTerminated(out[..j] + [x] + out[j..])
  {
    var grown := out[..j] + [x] + out[j..];
    assert forall i :: 0 <= i < |grown| && i != j ==> grown[i] == out[if i < j then i else i - 1];
  }

  /** The patch is the rewrite loop's output, with or without "DTMF_CTRL_PTY=v\n" added somewhere. */
  lemma PatchShape(ls: seq<string>, post: Request) returns (j: nat)
    ensures var out := FirstPass(ls, post);
      Patch(ls, post) == out || (j <= |out| && Patch(ls, post) == out[..j] + [PtyAssign(PtyValue(post))] + out[j..])
  {
    var out := FirstPass(ls, post);
    var marks := Marks(out);
    j := 0;
    if !HasGoverned(Analyze(ls)) && Enabled(post) && FindSimplexHeader(marks, 0).Some? {
      var h := FindSimplexHeader(marks, 0).value;
      j := SectionEnd(marks, h + 1);
    }
  }

  /** A patched file still has one newline per line when the file it came from had. */
  lemma PatchOneLines(ls: seq<string>, post: Request)
    requires NewlineTerminated(ls) && SingleLineValues(post)
    ensures NewlineTerminated(Patch(ls, post))
  {
    var out := FirstPass(ls, post);
    FirstPassOneLines(ls, post);
    var j := PatchShape(ls, post);
    if Patch(ls, post) != out {
      PtyValueSingleLine(post);
      AssignOneLine(PtyValue(post));
      GrownOneLines(out, j, PtyAssign(PtyValue(post)));
    }
  }

  /**
   * Saving the form with DTMF_CTRL_PTY_enabled set to '1' and then looking
   * the device up in the file written gives back the posted device path,
   * trimmed, provided:
   * - no posted value spans two lines;
   * - the device path has no form feed and does not trim to nothing;
   * - the file has a [SimplexLogic] header, and every such header and every
   *   DTMF_CTRL_PTY key is spelled exactly so.
   */
  lemma PatchThenLookup(ls: seq<string>, post: Request)
    requires SingleLineValues(post) && Enabled(post)
    requires '\U{0C}' !in PtyValue(post) && Trim(PtyValue(post)) != []
    requires ExactSimplexHeaders(ls) && ExactPtyKeys(Analyze(ls))
    requires exists i :: 0 <= i < |ls| && MarkOf(ls[i]).simplex
    ensures PtyPath(Some(Patch(ls, post))) == Trim(PtyValue(post))
  {
    PatchKeepsExact(ls, post);
    PatchGovernsPty(ls, post);
    PtyValueSingleLine(post);
    LookupOfGoverned(Patch(ls, post), PtyValue(post));
  }

  /**
   * The same promise on the file itself: the script reads the old content
   * with file(), writes the patched lines with implode(""), and the lookup
   * reads the result with file() again. A content that ends in a newline
   * makes every line end in its one newline, so the lines read back are
   * the lines written.
   */
  lemma SaveThenLookup(content: string, post: Request)
    requires |content| == 0 || content[|content| - 1] == '\n'
    requires SingleLineValues(post) && Enabled(post)
    requires '\U{0C}' !in PtyValue(post) && Trim(PtyValue(post)) != []
    requires ExactSimplexHeaders(FileLines(content)) && ExactPtyKeys(Analyze(FileLines(content)))
    requires exists i :: 0 <= i < |FileLines(content)| && MarkOf(FileLines(content)[i]).simplex
    ensures PtyPath(Some(FileLines(SavedContent(content, post)))) == Trim(PtyValue(post))
  {
    var ls := FileLines(content);
    FileLinesTerminated(content);
    PatchOneLines(ls, post);
    FileLinesImplode(Patch(ls, post));
    PatchThenLookup(ls, post);
  }

  /**
   * Saving the same form twice writes the same file content as saving it
   * once, when the old content is empty or ends in a newline, no posted
   * value spans two lines and the insertion, if it fires, targets a header
   * named exactly SimplexLogic.
   */
  lemma SavedIdempotent(content: string, post: Request)
    requires |content| == 0 || content[|content| - 1] == '\n'
    requires SingleLineValues(post)
    requires Inserts(FileLines(content), post) ==> TargetExact(FileLines(content))
    ensures SavedContent(SavedContent(content, post), post) == SavedContent(content, post)
  {
    var ls := FileLines(content);
    FileLinesTerminated(content);
    PatchOneLines(ls, post);
    FileLinesImplode(Patch(ls, post));
    PatchIdempotent(ls, post);
  }
}

=== FILE: php_text.dfy ===
/**
 * The PHP string primitives the panel relies on: trim(), PCRE's \s and
 * word classes, ASCII case folding (strcasecmp), str_ends_with, str_replace,
 * empty() on strings, loose comparison with '1', and decimal digit strings.
 * PHP strings are byte strings; they are modelled as seq<char> and every
 * class below only involves ASCII characters.
 */
module PhpText {

  /** The characters trim() removes by default: " \t\n\r\0\x0B". */
  predicate IsTrimChar(c: char) {
    c == ' ' || c == '\t' || c == '\n' || c == '\r' || c == '\0' || c == '\U{0B}'
  }

  /** The characters PCRE's \s matches: space, \t, \n, \x0B, \f, \r (no \0, but \f). */
  predicate IsSpace(c: char) {
    c == ' ' || c == '\t' || c == '\n' || c == '\U{0B}' || c == '\U{0C}' || c == '\r'
  }

  /** The class [A-Z0-9_] under the /i flag. */
  predicate IsWordChar(c: char) {
    ('A' <= c <= 'Z') || ('a' <= c <= 'z') || ('0' <= c <= '9') || c == '_'
  }

  predicate IsDigit(c: char) { '0' <= c <= '9' }

  /** The character classes the panel's regular expressions repeat with `*` or `+`. */
  datatype CharClass = Space | Word | Digit | NumericSpace | NotNewline

  predicate InClass(c: char, k: CharClass) {
    match k
    case Space => IsSpace(c)
    case Word => IsWordChar(c)
    case Digit => IsDigit(c)
    case NumericSpace => IsNumericSpace(c)
    case NotNewline => c != '\n'
  }

  /**
   * Length of the longest run of class-k characters in s starting at index
   * i: what a greedy `[k]*` consumes there.
   */
  function Run(s: string, i: nat, k: CharClass): (n: nat)
    requires i <= |s|
    ensures i + n <= |s|
    decreases |s| - i
  {
    if i < |s| && InClass(s[i], k) then 1 + Run(s, i + 1, k) else 0
  }

  /** The run covers exactly the characters of the class before the first one outside it. */
  lemma {:induction false} RunSpec(s: string, i: nat, k: CharClass)
    requires i <= |s|
    ensures forall j :: i <= j < i + Run(s, i, k) ==> InClass(s[j], k)
    ensures i + Run(s, i, k) < |s| ==> !InClass(s[i + Run(s, i, k)], k)
    decreases |s| - i
  {
    if i < |s| && InClass(s[i], k) {
      RunSpec(s, i + 1, k);
    }
  }

  /** A run that starts over class characters i..j continues from j. */
  lemma {:induction false} RunOver(s: string, i: nat, j: nat, k: CharClass)
    requires i <= j <= |s|
    requires forall m :: i <= m < j ==> InClass(s[m], k)
    ensures Run(s, i, k) == (j - i) + Run(s, j, k)
    decreases j - i
  {
    if i < j {
      RunOver(s, i + 1, j, k);
    }
  }

  /** A run that starts outside the class is empty. */
  lemma RunStops(s: string, i: nat, k: CharClass)
    requires i < |s| && !InClass(s[i], k)
    ensures Run(s, i, k) == 0
  {
  }

  /** ltrim() with the default character set. */
  function LTrim(s: string): string {
    if |s| > 0 && IsTrimChar(s[0]) then LTrim(s[1..]) else s
  }

  /** rtrim() with the default character set. */
  function RTrim(s: string): string {
    if |s| > 0 && IsTrimChar(s[|s| - 1]) then RTrim(s[..|s| - 1]) else s
  }

  /** trim() with the default character set. */
  function Trim(s: string): string {
    LTrim(RTrim(s))
  }

  /** ltrim removes exactly the longest prefix of trim characters. */
  lemma {:induction false} LTrimSpec(s: string)
    ensures |LTrim(s)| <= |s| && LTrim(s) == s[|s| - |LTrim(s)|..]
    ensures forall i :: 0 <= i < |s| - |LTrim(s)| ==> IsTrimChar(s[i])
    ensures LTrim(s) == [] || !IsTrimChar(LTrim(s)[0])
  {
    if |s| > 0 && IsTrimChar(s[0]) {
      LTrimSpec(s[1..]);
    }
  }

  /** rtrim removes exactly the longest suffix of trim characters. */
  lemma {:induction false} RTrimSpec(s: string)
    ensures |RTrim(s)| <= |s| && RTrim(s) == s[..|RTrim(s)|]
    ensures forall i :: |RTrim(s)| <= i < |s| ==> IsTrimChar(s[i])
    ensures RTrim(s) == [] || !IsTrimChar(RTrim(s)[|RTrim(s)| - 1])
  {
    if |s| > 0 && IsTrimChar(s[|s| - 1]) {
      RTrimSpec(s[..|s| - 1]);
    }
  }

  /** Trim removes a run of trim characters at each end and nothing else. */
  lemma TrimIsInfix(s: string)
    ensures exists i, j :: (0 <= i <= j <= |s| && Trim(s) == s[i..j]
      && (forall k :: 0 <= k < i ==> IsTrimChar(s[k]))
      && (forall k :: j <= k < |s| ==> IsTrimChar(s[k])))
    ensures Trim(s) == [] || (!IsTrimChar(Trim(s)[0]) && !IsTrimChar(Trim(s)[|Trim(s)| - 1]))
  {
    var r := RTrim(s);
    RTrimSpec(s);
    var t := LTrim(r);
    LTrimSpec(r);
    var i, j := |r| - |t|, |r|;
    assert t == s[i..j];
  }

  lemma LTrimNoop(s: string)
    requires s == [] || !IsTrimChar(s[0])
    ensures LTrim(s) == s
  {
  }

  lemma RTrimNoop(s: string)
    requires s == [] || !IsTrimChar(s[|s| - 1])
    ensures RTrim(s) == s
  {
  }

  /** Trimming twice is trimming once. */
  lemma TrimIdempotent(s: string)
    ensures Trim(Trim(s)) == Trim(s)
  {
    TrimIsInfix(s);
    var t := Trim(s);
    RTrimNoop(t);
    LTrimNoop(t);
  }

  /** rtrim stops at a non-trim character: what lies before it is kept whole. */
  lemma {:induction false} RTrimAppend(a: string, b: string)
    requires |a| > 0 && !IsTrimChar(a[|a| - 1])
    ensures RTrim(a + b) == a + RTrim(b)
  {
    if |b| == 0 {
      assert a + b == a;
      RTrimNoop(a);
    } else if IsTrimChar(b[|b| - 1]) {
      assert (a + b)[..|a + b| - 1] == a + b[..|b| - 1];
      RTrimAppend(a, b[..|b| - 1]);
    }
  }

  /** trim() of a line that begins and ends its kept part with non-trim characters. */
  lemma TrimOfPrefixed(a: string, b: string)
    requires |a| > 0 && !IsTrimChar(a[0]) && !IsTrimChar(a[|a| - 1])
    ensures Trim(a + b) == a + RTrim(b)
  {
    RTrimAppend(a, b);
    LTrimNoop(a + RTrim(b));
  }

  /** ltrim passes over a prefix made of trim characters. */
  lemma {:induction false} LTrimSkip(a: string, b: string)
    requires forall i :: 0 <= i < |a| ==> IsTrimChar(a[i])
    ensures LTrim(a + b) == LTrim(b)
  {
    if |a| > 0 {
      assert (a + b)[1..] == a[1..] + b;
      LTrimSkip(a[1..], b);
    } else {
      assert a + b == b;
    }
  }

  /** A trailing trim character never survives rtrim. */
  lemma RTrimDropsLast(s: string, c: char)
    requires IsTrimChar(c)
    ensures RTrim(s + [c]) == RTrim(s)
  {
    assert (s + [c])[..|s + [c]| - 1] == s;
  }

  /** ASCII lower-casing, as strcasecmp and the /i flag apply it. */
  function Lower(c: char): char {
    if 'A' <= c <= 'Z' then (c as int + 32) as char else c
  }

  /** strcasecmp(a, b) === 0 */
  predicate EqualsIgnoreCase(a: string, b: string) {
    |a| == |b| && forall i :: 0 <= i < |a| ==> Lower(a[i]) == Lower(b[i])
  }

  /** s begins with p, ignoring ASCII case (an anchored literal under /i). */
  predicate StartsWithIgnoreCase(s: string, p: string) {
    |p| <= |s| && EqualsIgnoreCase(s[..|p|], p)
  }

  /** str_ends_with(s, suffix): case-sensitive. */
  predicate EndsWith(s: string, suffix: string) {
    |suffix| <= |s| && s[|s| - |suffix|..] == suffix
  }

  /** empty() on a string: true for "" and for "0". */
  predicate IsEmptyPhp(s: string) {
    s == "" || s == "0"
  }

  /** tok occurs in s at position i. */
  predicate OccursAt(s: string, tok: string, i: nat) {
    i + |tok| <= |s| && s[i..i + |tok|] == tok
  }

  predicate Contains(s: string, tok: string) {
    exists i: nat :: i <= |s| && OccursAt(s, tok, i)
  }

  /**
   * str_replace(tok, x, s) for a non-empty token: scan left to right,
   * replace each occurrence, resume after it (occurrences never overlap).
   */
  function Replace(s: string, tok: string, x: string): string
    requires |tok| > 0
    decreases |s|
  {
    if |s| < |tok| then s
    else if s[..|tok|] == tok then x + Replace(s[|tok|..], tok, x)
    else [s[0]] + Replace(s[1..], tok, x)
  }

  /** The number of replacements str_replace reports through its &$count argument. */
  function ReplaceCount(s: string, tok: string): nat
    requires |tok| > 0
    decreases |s|
  {
    if |s| < |tok| then 0
    else if s[..|tok|] == tok then 1 + ReplaceCount(s[|tok|..], tok)
    else ReplaceCount(s[1..], tok)
  }

  /** Every replacement changes the length by |x| - |tok| and nothing else changes it. */
  lemma {:induction false} ReplaceLength(s: string, tok: string, x: string)
    requires |tok| > 0
    ensures |Replace(s, tok, x)| == |s| + ReplaceCount(s, tok) * (|x| - |tok|)
    decreases |s|
  {
    if |s| < |tok| {
    } else if s[..|tok|] == tok {
      var rest := s[|tok|..];
      ReplaceLength(rest, tok, x);
      var c, d := ReplaceCount(rest, tok), |x| - |tok|;
      assert |Replace(s, tok, x)| == |x| + |Replace(rest, tok, x)|;
      assert ReplaceCount(s, tok) == 1 + c;
      assert |s| == |tok| + |rest|;
      assert (1 + c) * d == d + c * d;
    } else {
      ReplaceLength(s[1..], tok, x);
    }
  }

  /** Replacing a token by itself gives back the original string. */
  lemma {:induction false} ReplaceBySelf(s: string, tok: string)
    requires |tok| > 0
    ensures Replace(s, tok, tok) == s
    decreases |s|
  {
    if |s| < |tok| {
    } else if s[..|tok|] == tok {
      ReplaceBySelf(s[|tok|..], tok);
      assert s == s[..|tok|] + s[|tok|..];
    } else {
      ReplaceBySelf(s[1..], tok);
      assert s == [s[0]] + s[1..];
    }
  }

  /** A string without the token is returned unchanged and nothing is counted. */
  lemma {:induction false} ReplaceAbsent(s: string, tok: string, x: string)
    requires |tok| > 0
    requires !Contains(s, tok)
    ensures Replace(s, tok, x) == s && ReplaceCount(s, tok) == 0
    decreases |s|
  {
    if |s| < |tok| {
    } else {
      assert !OccursAt(s, tok, 0);
      assert s[..|tok|] != tok;
      forall i: nat | i <= |s| - 1 ensures !OccursAt(s[1..], tok, i) {
        assert !OccursAt(s, tok, i + 1);
        if i + |tok| <= |s| - 1 {
          assert s[1..][i..i + |tok|] == s[i + 1..i + 1 + |tok|];
        }
      }
      ReplaceAbsent(s[1..], tok, x);
      assert s == [s[0]] + s[1..];
    }
  }

  /** Text without the token's first character is copied and the scan resumes after it. */
  lemma {:induction false} ReplaceLiteralPrefix(a: string, s: string, tok: string, x: string)
    requires |tok| > 0 && tok[0] !in a
    ensures Replace(a + s, tok, x) == a + Replace(s, tok, x)
    decreases |a|
  {
    if a == [] {
      assert a + s == s;
    } else {
      var t := a + s;
      assert tok[0] !in a[1..] by {
        assert forall k :: 0 <= k < |a| - 1 ==> a[1..][k] == a[k + 1];
      }
      ReplaceLiteralPrefix(a[1..], s, tok, x);
      assert t[1..] == a[1..] + s;
      if |t| < |tok| {
        assert Replace(t, tok, x) == t;
        assert Replace(s, tok, x) == s;
        assert Replace(a[1..] + s, tok, x) == a[1..] + s;
      } else {
        assert t[..|tok|] != tok by {
          assert t[..|tok|][0] == a[0];
        }
        assert Replace(t, tok, x) == [a[0]] + Replace(a[1..] + s, tok, x);
      }
      assert a == [a[0]] + a[1..];
    }
  }

  /**
   * str_replace works piece by piece across a cut where no occurrence can
   * straddle: one whose right-hand piece starts with a character that
   * does not occur after the token's first position.
   */
  lemma {:induction false} ReplaceSplit(a: string, b: string, tok: string, x: string)
    requires |tok| > 0 && (b == [] || b[0] !in tok[1..])
    ensures Replace(a + b, tok, x) == Replace(a, tok, x) + Replace(b, tok, x)
    decreases |a|
  {
    var t := a + b;
    if a == [] {
      assert t == b;
    } else if |a| < |tok| {
      if |t| >= |tok| {
        assert b[0] != tok[|a|] by {
          assert tok[|a|] == tok[1..][|a| - 1];
        }
        assert t[..|tok|][|a|] == b[0];
        assert t[1..] == a[1..] + b;
        ReplaceSplit(a[1..], b, tok, x);
      }
    } else if a[..|tok|] == tok {
      assert t[..|tok|] == tok;
      assert t[|tok|..] == a[|tok|..] + b;
      ReplaceSplit(a[|tok|..], b, tok, x);
    } else {
      assert t[..|tok|] == a[..|tok|];
      assert t[1..] == a[1..] + b;
      ReplaceSplit(a[1..], b, tok, x);
    }
  }

  /** An occurrence at the very start is replaced and the scan resumes after it. */
  lemma ReplaceLeadingToken(tok: string, s: string, x: string)
    requires |tok| > 0
    ensures Replace(tok + s, tok, x) == x + Replace(s, tok, x)
  {
    assert (tok + s)[..|tok|] == tok;
    assert (tok + s)[|tok|..] == s;
  }

  /** Whitespace a PHP numeric string may carry before and after the number. */
  predicate IsNumericSpace(c: char) {
    c == ' ' || c == '\t' || c == '\n' || c == '\r' || c == '\U{0B}' || c == '\U{0C}'
  }

  predicate AllDigits(d: string) {
    forall i :: 0 <= i < |d| ==> IsDigit(d[i])
  }

  /** The value of a decimal digit string ("" is 0). */
  function DigitsValue(d: string): nat
    requires AllDigits(d)
  {
    if |d| == 0 then 0 else DigitsValue(d[..|d| - 1]) * 10 + (d[|d| - 1] as int - '0' as int)
  }

  /** The decimal spelling of n, without leading zeros ("0" for zero). */
  function NatToDigits(n: nat): (d: string)
    ensures |d| > 0 && AllDigits(d)
  {
    if n < 10 then [('0' as int + n) as char] else NatToDigits(n / 10) + [('0' as int + n % 10) as char]
  }

  /** Reading back the spelling of n gives n. */
  lemma {:induction false} DigitsRoundTrip(n: nat)
    ensures DigitsValue(NatToDigits(n)) == n
  {
    var d := NatToDigits(n);
    if n >= 10 {
      DigitsRoundTrip(n / 10);
      assert d[..|d| - 1] == NatToDigits(n / 10);
    }
  }

  /** A digit string with a value other than zero has a non-zero digit. */
  lemma {:induction false} DigitsValueZero(d: string)
    requires AllDigits(d)
    ensures DigitsValue(d) == 0 <==> forall i :: 0 <= i < |d| ==> d[i] == '0'
  {
    if |d| > 0 {
      DigitsValueZero(d[..|d| - 1]);
      assert forall i :: 0 <= i < |d| - 1 ==> d[..|d| - 1][i] == d[i];
    }
  }

  /**
   * An integer numeric string in the sense of PHP 8: optional whitespace,
   * an optional sign, one or more digits, optional whitespace.
   */
  predicate IsIntegerString(s: string) {
    var a := Run(s, 0, NumericSpace);
    var b := if a < |s| && (s[a] == '+' || s[a] == '-') then a + 1 else a;
    var c := b + Run(s, b, Digit);
    c > b && c + Run(s, c, NumericSpace) == |s|
  }

  /** The value of an integer numeric string. */
  function IntegerStringValue(s: string): int
    requires IsIntegerString(s)
  {
    var a := Run(s, 0, NumericSpace);
    var b := if a < |s| && (s[a] == '+' || s[a] == '-') then a + 1 else a;
    var c := b + Run(s, b, Digit);
    RunSpec(s, b, Digit);
    assert forall i :: 0 <= i < c - b ==> s[b..c][i] == s[b + i];
    var v: int := DigitsValue(s[b..c]);
    if b > a && s[a] == '-' then -v else v
  }

  /**
   * v == '1' under PHP 8 loose comparison, for integer numeric strings:
   * two numeric strings compare by value, anything else byte by byte.
   */
  predicate LooseEqualsOne(v: string) {
    v == "1" || (IsIntegerString(v) && IntegerStringValue(v) == 1)
  }

  /** implode("", ls): the lines written back one after another. */
  function Implode(ls: seq<string>): string {
    if |ls| == 0 then [] else ls[0] + Implode(ls[1..])
  }

  /**
   * file() without flags: the content cut after every '\n', each line
   * keeping its newline; a last line without one is kept as it is.
   */
  function FileLines(s: string): seq<string>
    decreases |s|
  {
    if |s| == 0 then []
    else
      var k := Run(s, 0, NotNewline);
      if k == |s| then [s] else [s[..k + 1]] + FileLines(s[k + 1..])
  }

  /** A line that ends in a newline and has no other. */
  predicate OneLine(l: string) {
    |l| > 0 && l[|l| - 1] == '\n' && '\n' !in l[..|l| - 1]
  }

  /** Every line ends in its one newline. */
  predicate NewlineTerminated(ls: seq<string>) {
    forall i :: 0 <= i < |ls| ==> OneLine(ls[i])
  }

  /** Text without a newline, closed by one, is one line. */
  lemma OneLineOf(a: string)
    requires '\n' !in a
    ensures OneLine(a + "\n")
  {
    assert (a + "\n")[..|a|] == a;
  }

  /** file() cuts one line that ends in its one newline off the front of the content. */
  lemma FileLinesCons(l: string, rest: string)
    requires OneLine(l)
    ensures FileLines(l + rest) == [l] + FileLines(rest)
  {
    var s := l + rest;
    var k := |l| - 1;
    assert forall m :: 0 <= m < k ==> s[m] == l[..k][m];
    RunOver(s, 0, k, NotNewline);
    RunStops(s, k, NotNewline);
    assert s[..k + 1] == l;
    assert s[k + 1..] == rest;
  }

  /** Reading back what was written gives the same lines when each ends in its one newline. */
  lemma {:induction false} FileLinesImplode(ls: seq<string>)
    requires NewlineTerminated(ls)
    ensures FileLines(Implode(ls)) == ls
  {
    if |ls| > 0 {
      assert OneLine(ls[0]);
      assert NewlineTerminated(ls[1..]) by {
        assert forall i :: 0 <= i < |ls| - 1 ==> ls[1..][i] == ls[i + 1];
      }
      FileLinesCons(ls[0], Implode(ls[1..]));
      FileLinesImplode(ls[1..]);
      assert ls == [ls[0]] + ls[1..];
    }
  }

  /** The lines file() returns end in their one newline when the content ends in a newline. */
  lemma {:induction false} FileLinesTerminated(s: string)
    requires |s| == 0 || s[|s| - 1] == '\n'
    ensures NewlineTerminated(FileLines(s))
    decreases |s|
  {
    if |s| > 0 {
      var k := Run(s, 0, NotNewline);
      RunSpec(s, 0, NotNewline);
      assert k < |s|;
      var l := s[..k + 1];
      assert forall m :: 0 <= m < k ==> l[..k][m] == s[m];
      FileLinesTerminated(s[k + 1..]);
    }
  }
}

=== FILE: pty_lookup.dfy ===
/**
 * getPTYPathFromConfig() of dtmf-commands.php (lines 11-44): the device the
 * panel writes DTMF digits to, read back from svxlink.conf. The scan keeps a
 * flag that a [SimplexLogic] header (in any case) sets and any other header
 * clears, and stops at the first DTMF_CTRL_PTY line met while it is set.
 */
module PtyLookup {
  import opened Wrappers
  import opened PhpText
  import opened SvxConf

  /**
   * `(.+)$` from index k of t: one or more characters other than '\n', up
   * to the end of t or up to a newline that ends t.
   */
  function TailCapture(t: string, k: nat): Option<string>
    requires k <= |t|
  {
    var e := k + Run(t, k, NotNewline);
    if k < e && |t| - 1 <= e then Some(t[k..e]) else None
  }

  /**
   * `\s*(.+)$` from index i of t once the white space up to k is consumed:
   * PCRE tries the longest white-space prefix first and gives characters
   * back one at a time until the rest matches.
   */
  function ValueCapture(t: string, i: nat, k: nat): Option<string>
    requires i <= k <= |t|
    decreases k
  {
    var c := TailCapture(t, k);
    if c.Some? || k == i then c else ValueCapture(t, i, k - 1)
  }

  /** `/^\s*DTMF_CTRL_PTY\s*=\s*(.+)$/i` applied to a trimmed line: the capture, if it matches. */
  function PtyCapture(t: string): Option<string> {
    var p := Run(t, 0, Space);
    var e := p + |PtyKey|;
    if e <= |t| && EqualsIgnoreCase(t[p..e], PtyKey) then
      var q := e + Run(t, e, Space);
      if q < |t| && t[q] == '=' then ValueCapture(t, q + 1, q + 1 + Run(t, q + 1, Space)) else None
    else None
  }

  /** What the three regular expressions of the scan see in one line's trim(). */
  datatype Reading = Reading(simplex: bool, header: bool, capture: Option<string>)

  function Read(line: string): Reading {
    var t := Trim(line);
    Reading(IsSimplexHeader(t), HeaderName(t).Some?, PtyCapture(t))
  }

  /** The scan's view of every line of the file. */
  function Readings(ls: seq<string>): seq<Reading> {
    seq(|ls|, i requires 0 <= i < |ls| => Read(ls[i]))
  }

  /** $inSimplexLogic after one more line. */
  function NextInSimplex(inSimplex: bool, r: Reading): bool {
    if r.simplex then true
    else if r.header then false
    else inSimplex
  }

  /** What the scan returns when it reaches line i with the flag inSimplex. */
  function ScanFrom(rs: seq<Reading>, i: nat, inSimplex: bool): string
    requires i <= |rs|
    decreases |rs| - i
  {
    if i == |rs| then DefaultPty
    else if rs[i].simplex || rs[i].header then ScanFrom(rs, i + 1, NextInSimplex(inSimplex, rs[i]))
    else if inSimplex && rs[i].capture.Some? then Trim(rs[i].capture.value)
    else ScanFrom(rs, i + 1, inSimplex)
  }

  /**
   * getPTYPathFromConfig(): None stands for a file that does not exist or
   * that file() cannot read.
   */
  function PtyPath(file: Option<seq<string>>): string {
    match file
    case None => DefaultPty
    case Some(ls) => ScanFrom(Readings(ls), 0, false)
  }

  /** The loop of getPTYPathFromConfig(), lines 11-44. */
  method GetPtyPathFromConfig(file: Option<seq<string>>) returns (ptyPath: string)
    ensures ptyPath == PtyPath(file)
  {
    ptyPath := DefaultPty;
    if file.Some? {
      var lines := file.value;
      ghost var rs := Readings(lines);
      var inSimplexLogic := false;
      var i := 0;
      while i < |lines|
        invariant 0 <= i <= |lines|
        invariant ptyPath == DefaultPty
        invariant ScanFrom(rs, i, inSimplexLogic) == PtyPath(file)
      {
        var line := Trim(lines[i]);
        assert rs[i] == Read(lines[i]);
        if IsSimplexHeader(line) {
          inSimplexLogic := true;
          i := i + 1;
          continue;
        }
        if HeaderName(line).Some? && !IsSimplexHeader(line) {
          inSimplexLogic := false;
          i := i + 1;
          continue;
        }
        var matches := PtyCapture(line);
        if inSimplexLogic && matches.Some? {
          ptyPath := Trim(matches.value);
          break;
        }
        i := i + 1;
      }
    }
  }

  /** $inSimplexLogic when the loop reaches line i. */
  function InSimplexAt(rs: seq<Reading>, i: nat): bool
    requires i <= |rs|
  {
    if i == 0 then false else NextInSimplex(InSimplexAt(rs, i - 1), rs[i - 1])
  }

  /** Line i ends the scan: it is no header, the flag is set and the regex matches. */
  predicate Hit(rs: seq<Reading>, i: nat)
    requires i < |rs|
  {
    InSimplexAt(rs, i) && !rs[i].simplex && !rs[i].header && rs[i].capture.Some?
  }

  /** From line i on, the scan returns the value of the first hit, or the default when there is none. */
  lemma {:induction false} ScanFirstHit(rs: seq<Reading>, i: nat)
    requires i <= |rs|
    ensures (forall k :: i <= k < |rs| ==> !Hit(rs, k)) ==> ScanFrom(rs, i, InSimplexAt(rs, i)) == DefaultPty
    ensures forall h :: (i <= h < |rs| && Hit(rs, h) && forall k :: i <= k < h ==> !Hit(rs, k)) ==>
      ScanFrom(rs, i, InSimplexAt(rs, i)) == Trim(rs[h].capture.value)
    decreases |rs| - i
  {
    if i < |rs| {
      ScanFirstHit(rs, i + 1);
      var f := InSimplexAt(rs, i);
      assert InSimplexAt(rs, i + 1) == NextInSimplex(f, rs[i]);
      if rs[i].simplex || rs[i].header {
        assert !Hit(rs, i);
        assert ScanFrom(rs, i, f) == ScanFrom(rs, i + 1, InSimplexAt(rs, i + 1));
      } else {
        assert InSimplexAt(rs, i + 1) == f;
        if Hit(rs, i) {
          assert ScanFrom(rs, i, f) == Trim(rs[i].capture.value);
        } else {
          assert ScanFrom(rs, i, f) == ScanFrom(rs, i + 1, f);
        }
      }
    }
  }

  /**
   * getPTYPathFromConfig() returns the trimmed capture of the first
   * DTMF_CTRL_PTY line met inside a [SimplexLogic] section, and
   * /dev/shm/dtmf_ctrl when there is none or the file cannot be read.
   */
  lemma PtyPathFirstHit(ls: seq<string>)
    ensures var rs := Readings(ls);
      (forall k :: 0 <= k < |rs| ==> !Hit(rs, k)) ==> PtyPath(Some(ls)) == DefaultPty
    ensures var rs := Readings(ls);
      forall h :: (0 <= h < |rs| && Hit(rs, h) && forall k :: 0 <= k < h ==> !Hit(rs, k)) ==>
      PtyPath(Some(ls)) == Trim(rs[h].capture.value)
    ensures PtyPath(None) == DefaultPty
  {
    ScanFirstHit(Readings(ls), 0);
  }

  /** A commented-out line never matches: '#' is no white space and starts no key. */
  lemma CommentedNeverMatches(t: string)
    requires |t| > 0 && t[0] == '#'
    ensures PtyCapture(t) == None
  {
    RunStops(t, 0, Space);
    if |PtyKey| <= |t| {
      assert Lower(t[..|PtyKey|][0]) != Lower(PtyKey[0]);
    }
  }
}

=== FILE: svx_conf.dfy ===
/**
 * The svxlink.conf patch engine of includes/save-svx.php: one pass that
 * rewrites `KEY=VALUE` lines from the posted form (lines 11-52) and a
 * second pass that inserts DTMF_CTRL_PTY into [SimplexLogic] when it was
 * absent and enabled (lines 54-82).
 *
 * A file is the array that PHP's file() returns: lines with their original
 * endings kept. Functions give the specification; the methods follow the
 * script's loops and are proved equal to it.
 */
module SvxConf {
  import opened Wrappers
  import opened PhpText

  const PtyKey: string := "DTMF_CTRL_PTY"
  const PtyEnabledKey: string := "DTMF_CTRL_PTY_enabled"
  const EnabledSuffix: string := "_enabled"
  const SimplexSection: string := "SimplexLogic"
  const SimplexHeader: string := "[SimplexLogic]"
  const DefaultPty: string := "/dev/shm/dtmf_ctrl"

  /** Keys of a PHP array are unique. */
  predicate DistinctNames(post: seq<(string, string)>) {
    forall i, j :: 0 <= i < j < |post| ==> post[i].0 != post[j].0
  }

  /** $_POST: the posted fields in the order PHP iterates them. */
  type Request = post: seq<(string, string)> | DistinctNames(post)

  /** $_POST[name], when it is set. */
  function Lookup(post: seq<(string, string)>, name: string): (r: Option<string>)
    ensures r.Some? <==> exists i :: 0 <= i < |post| && post[i].0 == name
    ensures r.Some? ==> exists i :: 0 <= i < |post| && post[i] == (name, r.value)
  {
    if |post| == 0 then None
    else if post[0].0 == name then Some(post[0].1)
    else Lookup(post[1..], name)
  }

  /** isset($_POST['DTMF_CTRL_PTY_enabled']) && $_POST['DTMF_CTRL_PTY_enabled'] == '1' */
  predicate Enabled(post: Request) {
    match Lookup(post, PtyEnabledKey)
    case Some(v) => LooseEqualsOne(v)
    case None => false
  }

  /** $_POST['DTMF_CTRL_PTY'] ?? '/dev/shm/dtmf_ctrl' */
  function PtyValue(post: Request): string {
    Lookup(post, PtyKey).GetOr(DefaultPty)
  }

  /** The index of the last ']' in s. */
  function LastCloseBracket(s: string): (k: Option<nat>)
    ensures k.Some? ==> k.value < |s| && s[k.value] == ']' && forall i :: k.value < i < |s| ==> s[i] != ']'
    ensures k.None? ==> forall i :: 0 <= i < |s| ==> s[i] != ']'
  {
    if |s| == 0 then None
    else if s[|s| - 1] == ']' then Some(|s| - 1)
    else LastCloseBracket(s[..|s| - 1])
  }

  /**
   * `/^\[(.*)\]/` applied to a trimmed line: the name between the opening
   * '[' and the last ']' that comes before any newline ('.' stops at '\n').
   */
  function HeaderName(t: string): Option<string> {
    var seg := t[..Run(t, 0, NotNewline)];
    if |seg| > 0 && seg[0] == '[' then
      match LastCloseBracket(seg[1..])
      case Some(k) => Some(seg[1..][..k])
      case None => None
    else None
  }

  /**
   * `\s*(.*)$` from index i of t: `.` cannot cross a newline and `$` also
   * matches before a final newline, so once the leading white space is
   * skipped a newline may only be the last character.
   */
  predicate ValueTailMatches(t: string, i: nat)
    requires i <= |t|
  {
    var m := i + Run(t, i, Space);
    forall j :: m <= j < |t| - 1 ==> t[j] != '\n'
  }

  /**
   * `/^#?\s*([A-Z0-9_]+)\s*=\s*(.*)$/i` applied to a trimmed line: the key
   * it captures. '#', white space, key characters and '=' are disjoint
   * classes, so the greedy match needs no backtracking.
   */
  function KeyOf(t: string): Option<string> {
    var a := if |t| > 0 && t[0] == '#' then 1 else 0;
    var b := a + Run(t, a, Space);
    var c := b + Run(t, b, Word);
    var d := c + Run(t, c, Space);
    if b < c && d < |t| && t[d] == '=' && ValueTailMatches(t, d + 1) then Some(t[b..c]) else None
  }

  /** preg_match('/^\[/', $t) */
  predicate OpensBracket(t: string) {
    |t| > 0 && t[0] == '['
  }

  /** preg_match('/^\[SimplexLogic\]/i', $t) */
  predicate IsSimplexHeader(t: string) {
    StartsWithIgnoreCase(t, SimplexHeader)
  }

  /** What the two regular expressions of the rewrite loop capture in one line's trim(). */
  datatype LineInfo = LineInfo(header: Option<string>, key: Option<string>)

  function Classify(line: string): LineInfo {
    var t := Trim(line);
    LineInfo(HeaderName(t), KeyOf(t))
  }

  /** The rewrite loop's view of every line of a file. */
  function Analyze(ls: seq<string>): seq<LineInfo> {
    seq(|ls|, i requires 0 <= i < |ls| => Classify(ls[i]))
  }

  /** What the two regular expressions of the insertion pass test in one line's trim(). */
  datatype Mark = Mark(opens: bool, simplex: bool)

  function MarkOf(line: string): Mark {
    var t := Trim(line);
    Mark(OpensBracket(t), IsSimplexHeader(t))
  }

  /** The insertion pass's view of every line of a file. */
  function Marks(ls: seq<string>): seq<Mark> {
    seq(|ls|, i requires 0 <= i < |ls| => MarkOf(ls[i]))
  }

  /** "DTMF_CTRL_PTY=$valor\n" */
  function PtyAssign(v: string): string {
    PtyKey + "=" + v + "\n"
  }

  /** The line a governed DTMF_CTRL_PTY line becomes: enabled, or commented out. */
  function PtyLine(post: Request): string {
    if Enabled(post) then PtyAssign(PtyValue(post)) else "#" + PtyAssign(PtyValue(post))
  }

  /** A posted name replaces key k: strcasecmp match and no `_enabled` suffix. */
  predicate Eligible(name: string, key: string) {
    EqualsIgnoreCase(name, key) && !EndsWith(name, EnabledSuffix)
  }

  /** The value of the first posted entry, in request order, that may replace key. */
  function PlainMatch(post: seq<(string, string)>, key: string): (r: Option<string>)
    ensures r.Some? ==> exists i :: (0 <= i < |post| && Eligible(post[i].0, key) && post[i].1 == r.value
      && forall j :: 0 <= j < i ==> !Eligible(post[j].0, key))
    ensures r.None? <==> forall i :: 0 <= i < |post| ==> !Eligible(post[i].0, key)
  {
    if |post| == 0 then None
    else if Eligible(post[0].0, key) then Some(post[0].1)
    else
      var r := PlainMatch(post[1..], key);
      assert forall i :: 1 <= i < |post| ==> post[1..][i - 1] == post[i];
      r
  }

  /**
   * What the rewrite loop emits for one line whose key capture is key,
   * given the section in effect once the line's own header (if any) has
   * been read (lines 20-51).
   */
  function LineOut(line: string, key: Option<string>, section: Option<string>, post: Request): string {
    match key
    case None => line
    case Some(k) =>
      if k == PtyKey && section == Some(SimplexSection) then PtyLine(post)
      else match PlainMatch(post, k)
        case Some(v) => k + "=" + v + "\n"
        case None => line
  }

  /** $bloque_actual after reading one more line. */
  function NextSection(section: Option<string>, info: LineInfo): Option<string> {
    if info.header.Some? then info.header else section
  }

  /** $bloque_actual after the first i lines (null before any header). */
  function Section(infos: seq<LineInfo>, i: nat): Option<string>
    requires i <= |infos|
  {
    if i == 0 then None else NextSection(Section(infos, i - 1), infos[i - 1])
  }

  /** Line i is DTMF_CTRL_PTY inside a section named exactly SimplexLogic. */
  predicate Governed(infos: seq<LineInfo>, i: nat)
    requires i < |infos|
  {
    infos[i].key == Some(PtyKey) && Section(infos, i + 1) == Some(SimplexSection)
  }

  /** $dtmf_ctrl_pty_procesado after the first i lines. */
  predicate GovernedBefore(infos: seq<LineInfo>, i: nat)
    requires i <= |infos|
  {
    i > 0 && (GovernedBefore(infos, i - 1) || Governed(infos, i - 1))
  }

  /** $dtmf_ctrl_pty_procesado at the end of the rewrite loop. */
  predicate HasGoverned(infos: seq<LineInfo>) {
    GovernedBefore(infos, |infos|)
  }

  /** The flag is set exactly when some line read so far is governed. */
  lemma {:induction false} GovernedBeforeExists(infos: seq<LineInfo>, i: nat)
    requires i <= |infos|
    ensures GovernedBefore(infos, i) <==> exists k :: 0 <= k < i && Governed(infos, k)
  {
    if i > 0 {
      GovernedBeforeExists(infos, i - 1);
    }
  }

  /** The first i lines of the rewrite loop's output. */
  function Rewritten(ls: seq<string>, infos: seq<LineInfo>, post: Request, i: nat): (r: seq<string>)
    requires |infos| == |ls| && i <= |ls|
    ensures |r| == i
  {
    if i == 0 then []
    else Rewritten(ls, infos, post, i - 1) + [LineOut(ls[i - 1], infos[i - 1].key, Section(infos, i), post)]
  }

  /** Each output line is the input line at the same position, copied or rewritten. */
  lemma {:induction false} RewrittenAt(ls: seq<string>, infos: seq<LineInfo>, post: Request, i: nat)
    requires |infos| == |ls| && i <= |ls|
    ensures forall k :: 0 <= k < i ==> Rewritten(ls, infos, post, i)[k] == LineOut(ls[k], infos[k].key, Section(infos, k + 1), post)
  {
    if i > 0 {
      RewrittenAt(ls, infos, post, i - 1);
    }
  }

  /** The rewrite loop: one output line per input line, in the same order. */
  function FirstPass(ls: seq<string>, post: Request): (r: seq<string>)
    ensures |r| == |ls|
    ensures forall i :: 0 <= i < |ls| ==> r[i] == LineOut(ls[i], Analyze(ls)[i].key, Section(Analyze(ls), i + 1), post)
  {
    RewrittenAt(ls, Analyze(ls), post, |ls|);
    Rewritten(ls, Analyze(ls), post, |ls|)
  }

  /** The first [SimplexLogic] header (in any case) at or after from. */
  function FindSimplexHeader(marks: seq<Mark>, from: nat): (h: Option<nat>)
    requires from <= |marks|
    ensures h.Some? ==> (from <= h.value < |marks| && marks[h.value].simplex
      && forall k :: from <= k < h.value ==> !marks[k].simplex)
    ensures h.None? ==> forall k :: from <= k < |marks| ==> !marks[k].simplex
    decreases |marks| - from
  {
    if from == |marks| then None
    else if marks[from].simplex then Some(from)
    else FindSimplexHeader(marks, from + 1)
  }

  /** The first line at or after from whose trimmed text starts with '[' (or the end). */
  function SectionEnd(marks: seq<Mark>, from: nat): (j: nat)
    requires from <= |marks|
    ensures from <= j <= |marks|
    ensures j < |marks| ==> marks[j].opens
    ensures forall k :: from <= k < j ==> !marks[k].opens
    decreases |marks| - from
  {
    if from == |marks| || marks[from].opens then from else SectionEnd(marks, from + 1)
  }

  /**
   * The insertion pass: "DTMF_CTRL_PTY=v\n" goes after the first
   * [SimplexLogic] header and the lines that follow it up to the next line
   * starting with '['. Without such a header nothing changes.
   */
  function InsertPass(ls: seq<string>, v: string): seq<string> {
    var marks := Marks(ls);
    match FindSimplexHeader(marks, 0)
    case None => ls
    case Some(h) =>
      var j := SectionEnd(marks, h + 1);
      ls[..j] + [PtyAssign(v)] + ls[j..]
  }

  /** The whole patch: the rewrite pass, then the insertion pass when it is due. */
  function Patch(ls: seq<string>, post: Request): seq<string> {
    var out := FirstPass(ls, post);
    if !HasGoverned(Analyze(ls)) && Enabled(post) then InsertPass(out, PtyValue(post)) else out
  }
  /** What the script writes back: the old content read with file(), patched, and joined with implode(""). */
  function SavedContent(content: string, post: Request): string {
    Implode(Patch(FileLines(content), post))
  }


  /**
   * The body of the rewrite loop for one line (lines 20-51), given
   * $bloque_actual once the line's own header has been read; especial
   * tells whether the DTMF_CTRL_PTY special case ran.
   */
  method RewriteLine(linea: string, bloque: Option<string>, post: Request) returns (salida: string, especial: bool)
    ensures salida == LineOut(linea, Classify(linea).key, bloque, post)
    ensures especial <==> Classify(linea).key == Some(PtyKey) && bloque == Some(SimplexSection)
  {
    var modificado := false;
    especial := false;
    var clave := KeyOf(Trim(linea));
    salida := linea;
    if clave.Some? {
      if clave.value == PtyKey && bloque == Some(SimplexSection) {
        especial := true;
        var valor := PtyValue(post);
        if Enabled(post) {
          salida := PtyKey + "=" + valor + "\n";
        } else {
          salida := "#" + PtyKey + "=" + valor + "\n";
        }
        modificado := true;
      } else {
        var j := 0;
        while j < |post|
          invariant 0 <= j <= |post|
          invariant !modificado
          invariant PlainMatch(post[j..], clave.value) == PlainMatch(post, clave.value)
        {
          var nombre, valor := post[j].0, post[j].1;
          if EqualsIgnoreCase(nombre, clave.value) && !EndsWith(nombre, EnabledSuffix) {
            salida := clave.value + "=" + valor + "\n";
            modificado := true;
            break;
          }
          assert post[j..][1..] == post[j + 1..];
          j := j + 1;
        }
      }
    }
  }

  /** The rewrite loop of save-svx.php, lines 11-52. */
  method RewriteLines(lineas: seq<string>, post: Request) returns (nuevas: seq<string>, procesado: bool)
    ensures nuevas == FirstPass(lineas, post)
    ensures procesado == HasGoverned(Analyze(lineas))
  {
    ghost var infos := Analyze(lineas);
    nuevas := [];
    var bloque: Option<string> := None;
    procesado := false;
    for i := 0 to |lineas|
      invariant nuevas == Rewritten(lineas, infos, post, i)
      invariant bloque == Section(infos, i)
      invariant procesado == GovernedBefore(infos, i)
    {
      var linea := lineas[i];
      var cabecera := HeaderName(Trim(linea));
      if cabecera.Some? {
        bloque := cabecera;
      }
      assert infos[i] == Classify(linea);
      var salida, especial := RewriteLine(linea, bloque, post);
      if especial {
        procesado := true;
      }
      nuevas := nuevas + [salida];
    }
  }

  /** The insertion pass of save-svx.php, lines 58-81. */
  method InsertPtyLine(nuevas: seq<string>, valor: string) returns (resultado: seq<string>)
    ensures resultado == InsertPass(nuevas, valor)
  {
    ghost var marks := Marks(nuevas);
    var finales: seq<string> := [];
    var agregado := false;
    var i := 0;
    while i < |nuevas|
      invariant 0 <= i <= |nuevas|
      invariant !agregado && finales == nuevas[..i]
      invariant forall k :: 0 <= k < i ==> !marks[k].simplex
    {
      finales := finales + [nuevas[i]];
      assert marks[i] == MarkOf(nuevas[i]);
      if !agregado && IsSimplexHeader(Trim(nuevas[i])) {
        var j := i + 1;
        while j < |nuevas| && !OpensBracket(Trim(nuevas[j]))
          invariant i + 1 <= j <= |nuevas|
          invariant finales == nuevas[..j]
          invariant forall k :: i + 1 <= k < j ==> !marks[k].opens
        {
          assert marks[j] == MarkOf(nuevas[j]);
          finales := finales + [nuevas[j]];
          j := j + 1;
        }
        ghost var corte := j;
        assert j < |nuevas| ==> marks[j] == MarkOf(nuevas[j]);
        assert FindSimplexHeader(marks, 0) == Some(i);
        assert corte == SectionEnd(marks, i + 1);
        finales := finales + [PtyKey + "=" + valor + "\n"];
        agregado := true;
        ghost var cabeza := finales;
        while j < |nuevas|
          invariant corte <= j <= |nuevas|
          invariant finales == cabeza + nuevas[corte..j]
        {
          assert nuevas[corte..j + 1] == nuevas[corte..j] + [nuevas[j]];
          finales := finales + [nuevas[j]];
          j := j + 1;
        }
        assert nuevas[corte..j] == nuevas[corte..];
        break;
      }
      i := i + 1;
    }
    if agregado {
      resultado := finales;
    } else {
      resultado := nuevas;
    }
  }

  /** The whole script body between file() and file_put_contents(). */
  method PatchConfig(lineas: seq<string>, post: Request) returns (nuevas: seq<string>)
    ensures nuevas == Patch(lineas, post)
  {
    var procesado;
    nuevas, procesado := RewriteLines(lineas, post);
    if !procesado && Enabled(post) {
      var valor := PtyValue(post);
      nuevas := InsertPtyLine(nuevas, valor);
    }
  }
}

=== FILE: svx_conf_properties.dfy ===
/**
 * What the patch engine of includes/save-svx.php promises about the file
 * it writes back: which lines it copies, how it rewrites the others, where
 * it inserts DTMF_CTRL_PTY, and what running it twice does.
 */
module SvxConfProperties {
  import opened Wrappers
  import opened PhpText
  import opened SvxConf
  import opened SvxLines

  // ---------------------------------------------------------------------
  // Sections over classified lines

  /** The section after i lines depends on those lines only. */
  lemma {:induction false} SectionOfPrefix(infos: seq<LineInfo>, more: seq<LineInfo>, i: nat)
    requires i <= |infos|
    ensures Section(infos + more, i) == Section(infos, i)
  {
    if i > 0 {
      SectionOfPrefix(infos, more, i - 1);
      assert (infos + more)[i - 1] == infos[i - 1];
    }
  }

  /** Two files with the same headers line by line have the same sections. */
  lemma {:induction false} SectionsAgree(a: seq<LineInfo>, b: seq<LineInfo>, i: nat)
    requires |a| == |b| && i <= |a|
    requires forall k :: 0 <= k < |a| ==> a[k].header == b[k].header
    ensures Section(a, i) == Section(b, i)
  {
    if i > 0 {
      SectionsAgree(a, b, i - 1);
    }
  }

  /** Inserting a line that is no header at position j shifts the sections after it by one. */
  lemma {:induction false} SectionAroundInsert(infos: seq<LineInfo>, j: nat, x: LineInfo, i: nat)
    requires x.header.None? && j <= |infos| && i <= |infos|
    ensures i <= j ==> Section(infos[..j] + [x] + infos[j..], i) == Section(infos, i)
    ensures j <= i ==> Section(infos[..j] + [x] + infos[j..], i + 1) == Section(infos, i)
  {
    var ins := infos[..j] + [x] + infos[j..];
    if i <= j {
      assert ins == infos[..j] + ([x] + infos[j..]);
      SectionOfPrefix(infos[..j], [x] + infos[j..], i);
      assert infos == infos[..j] + infos[j..];
      SectionOfPrefix(infos[..j], infos[j..], i);
    }
    if j <= i {
      if i == j {
        assert ins[j] == x;
      } else {
        SectionAroundInsert(infos, j, x, i - 1);
        assert ins[i] == infos[i - 1];
      }
    }
  }

  /** After a header and lines that are no headers, the section is the one that header names. */
  lemma {:induction false} SectionRunsOn(infos: seq<LineInfo>, h: nat, j: nat)
    requires h < j <= |infos|
    requires infos[h].header.Some?
    requires forall k :: h < k < j ==> infos[k].header.None?
    ensures Section(infos, j) == infos[h].header
  {
    if j > h + 1 {
      SectionRunsOn(infos, h, j - 1);
    }
  }

  // ---------------------------------------------------------------------
  // The rewrite pass

  /** Blank lines, section headers and `##` comments come out exactly as they went in. */
  lemma FirstPassCopies(ls: seq<string>, post: Request, i: nat)
    requires i < |ls|
    requires var t := Trim(ls[i]); t == [] || t[0] == '[' || (|t| >= 2 && t[0] == '#' && t[1] == '#')
    ensures FirstPass(ls, post)[i] == ls[i]
  {
    NoKeyLines(Trim(ls[i]));
  }

  /**
   * A DTMF_CTRL_PTY line inside [SimplexLogic] becomes "DTMF_CTRL_PTY=v\n"
   * when the form enables it and is commented out otherwise; v defaults to
   * /dev/shm/dtmf_ctrl.
   */
  lemma FirstPassGoverned(ls: seq<string>, post: Request, i: nat)
    requires i < |ls| && Governed(Analyze(ls), i)
    ensures Enabled(post) ==> FirstPass(ls, post)[i] == PtyKey + "=" + PtyValue(post) + "\n"
    ensures !Enabled(post) ==> FirstPass(ls, post)[i] == "#" + PtyKey + "=" + PtyValue(post) + "\n"
    ensures Lookup(post, PtyKey).None? && Lookup(post, PtyEnabledKey).None? ==>
      FirstPass(ls, post)[i] == "#" + PtyKey + "=" + DefaultPty + "\n"
  {
    assert FirstPass(ls, post)[i] == PtyLine(post);
    if Lookup(post, PtyKey).None? && Lookup(post, PtyEnabledKey).None? {
      DefaultPtyLine(post);
    }
  }

  /** A form without the DTMF fields comments the line out with the default device. */
  lemma DefaultPtyLine(post: Request)
    requires Lookup(post, PtyKey).None? && Lookup(post, PtyEnabledKey).None?
    ensures PtyLine(post) == "#" + PtyKey + "=" + DefaultPty + "\n"
  {
    assert !Enabled(post);
    assert PtyValue(post) == DefaultPty;
  }

  /**
   * Any other key line takes the value of the first posted field whose
   * name equals the key ignoring case and does not end in "_enabled"; the
   * rewritten line is never commented out. Without such a field it is copied.
   */
  lemma FirstPassPlain(ls: seq<string>, post: Request, i: nat, k: string)
    requires i < |ls| && Analyze(ls)[i].key == Some(k) && !Governed(Analyze(ls), i)
    ensures forall j :: (0 <= j < |post| && Eligible(post[j].0, k)
      && (forall m :: 0 <= m < j ==> !Eligible(post[m].0, k))) ==>
      FirstPass(ls, post)[i] == k + "=" + post[j].1 + "\n"
    ensures (forall j :: 0 <= j < |post| ==> !Eligible(post[j].0, k)) ==> FirstPass(ls, post)[i] == ls[i]
  {
    forall j | 0 <= j < |post| && Eligible(post[j].0, k) && (forall m :: 0 <= m < j ==> !Eligible(post[m].0, k))
      ensures FirstPass(ls, post)[i] == k + "=" + post[j].1 + "\n"
    {
      PlainMatchFirst(post, k, j);
    }
  }

  /** The first eligible field is the one PlainMatch picks. */
  lemma {:induction false} PlainMatchFirst(post: seq<(string, string)>, k: string, j: nat)
    requires j < |post| && Eligible(post[j].0, k)
    requires forall m :: 0 <= m < j ==> !Eligible(post[m].0, k)
    ensures PlainMatch(post, k) == Some(post[j].1)
  {
    if j > 0 {
      assert forall m :: 0 <= m < j - 1 ==> post[1..][m] == post[m + 1];
      PlainMatchFirst(post[1..], k, j - 1);
    }
  }

  /** A field whose name ends in "_enabled" never takes part in a plain replacement. */
  lemma {:induction false} EnabledFieldsIgnored(post: seq<(string, string)>, j: nat, k: string)
    requires j < |post| && EndsWith(post[j].0, EnabledSuffix)
    ensures PlainMatch(post[..j] + post[j + 1..], k) == PlainMatch(post, k)
  {
    if j == 0 {
      assert post[..j] + post[j + 1..] == post[1..];
    } else {
      assert (post[..j] + post[j + 1..])[1..] == post[1..][..j - 1] + post[1..][j..];
      EnabledFieldsIgnored(post[1..], j - 1, k);
    }
  }

  /** The rewrite pass keeps every section header where it was, and what the insertion pass sees. */
  lemma FirstPassKeepsSections(ls: seq<string>, post: Request)
    ensures forall i :: 0 <= i < |ls| ==> Analyze(FirstPass(ls, post))[i].header == Analyze(ls)[i].header
    ensures Marks(FirstPass(ls, post)) == Marks(ls)
  {
    var out := FirstPass(ls, post);
    forall i | 0 <= i < |ls|
      ensures Analyze(out)[i].header == Analyze(ls)[i].header && Marks(out)[i] == Marks(ls)[i]
    {
      LineOutKeepsSections(ls[i], Section(Analyze(ls), i + 1), post);
    }
  }

  /** With single-line values, the rewritten file reads back line by line as the original did. */
  lemma FirstPassKeepsInfo(ls: seq<string>, post: Request)
    requires SingleLineValues(post)
    ensures Analyze(FirstPass(ls, post)) == Analyze(ls)
  {
    var out := FirstPass(ls, post);
    forall i | 0 <= i < |ls| ensures Analyze(out)[i] == Analyze(ls)[i] {
      LineOutStable(ls[i], Section(Analyze(ls), i + 1), post);
    }
  }

  /** With single-line values, rewriting an already rewritten file changes nothing. */
  lemma FirstPassIdempotent(ls: seq<string>, post: Request)
    requires SingleLineValues(post)
    ensures FirstPass(FirstPass(ls, post), post) == FirstPass(ls, post)
  {
    var out := FirstPass(ls, post);
    FirstPassKeepsInfo(ls, post);
    forall i | 0 <= i < |ls| ensures FirstPass(out, post)[i] == out[i] {
      LineOutStable(ls[i], Section(Analyze(ls), i + 1), post);
    }
  }

  // ---------------------------------------------------------------------
  // The insertion pass

  /** Without a [SimplexLogic] header, in any case, the insertion pass changes nothing. */
  lemma InsertPassNoHeader(ls: seq<string>, v: string)
    requires forall i :: 0 <= i < |ls| ==> !MarkOf(ls[i]).simplex
    ensures InsertPass(ls, v) == ls
  {
    var marks := Marks(ls);
    assert forall i :: 0 <= i < |marks| ==> !marks[i].simplex by {
      assert forall i :: 0 <= i < |marks| ==> marks[i] == MarkOf(ls[i]);
    }
  }

  /**
   * After the first [SimplexLogic] header, in any case, the insertion pass
   * adds "DTMF_CTRL_PTY=v\n" once, past the lines that follow the header up
   * to the next line starting with '[', and moves nothing else.
   */
  lemma InsertPassPlacement(ls: seq<string>, v: string, h: nat)
    requires h < |ls| && MarkOf(ls[h]).simplex
    requires forall k :: 0 <= k < h ==> !MarkOf(ls[k]).simplex
    ensures exists j :: (h < j <= |ls| && InsertPass(ls, v) == ls[..j] + [PtyAssign(v)] + ls[j..]
      && (forall k :: h < k < j ==> !MarkOf(ls[k]).opens)
      && (j < |ls| ==> MarkOf(ls[j]).opens))
  {
    var marks := Marks(ls);
    FirstHeaderAt(ls, h);
    var j := SectionEnd(marks, h + 1);
    assert InsertPass(ls, v) == ls[..j] + [PtyAssign(v)] + ls[j..];
    assert forall k :: h < k < j ==> !MarkOf(ls[k]).opens by {
      assert forall k :: h < k < j ==> marks[k] == MarkOf(ls[k]);
    }
    assert j < |ls| ==> MarkOf(ls[j]).opens by {
      assert j < |ls| ==> marks[j] == MarkOf(ls[j]);
    }
    assert h < j <= |ls|;
  }

  /** The insertion pass finds the first [SimplexLogic] header, in any case. */
  lemma FirstHeaderAt(ls: seq<string>, h: nat)
    requires h < |ls| && MarkOf(ls[h]).simplex
    requires forall k :: 0 <= k < h ==> !MarkOf(ls[k]).simplex
    ensures FindSimplexHeader(Marks(ls), 0) == Some(h)
  {
    var marks := Marks(ls);
    assert marks[h].simplex;
    assert forall k :: 0 <= k < h ==> !marks[k].simplex by {
      assert forall k :: 0 <= k < h ==> marks[k] == MarkOf(ls[k]);
    }
  }

  /** What the rewrite loop sees in a file with one line inserted. */
  lemma AnalyzeInsert(ls: seq<string>, j: nat, x: string)
    requires j <= |ls|
    ensures Analyze(ls[..j] + [x] + ls[j..]) == Analyze(ls)[..j] + [Classify(x)] + Analyze(ls)[j..]
  {
    var ins := ls[..j] + [x] + ls[j..];
    assert forall i :: 0 <= i < j ==> ins[i] == ls[i];
    assert forall i :: j < i < |ins| ==> ins[i] == ls[i - 1];
  }

  // ---------------------------------------------------------------------
  // The whole patch

  /**
   * Whether the insertion pass adds its line: no DTMF_CTRL_PTY line is
   * governed, the form enables the device and the file has a
   * [SimplexLogic] header in any case.
   */
  predicate Inserts(ls: seq<string>, post: Request) {
    !HasGoverned(Analyze(ls)) && Enabled(post) && exists i :: 0 <= i < |ls| && MarkOf(ls[i]).simplex
  }

  /** The patch adds one line exactly when the insertion pass fires; otherwise it keeps the number of lines. */
  lemma PatchLength(ls: seq<string>, post: Request)
    ensures |Patch(ls, post)| == |ls| + (if Inserts(ls, post) then 1 else 0)
  {
    var out := FirstPass(ls, post);
    FirstPassKeepsSections(ls, post);
    var marks := Marks(out);
    if exists i :: 0 <= i < |ls| && MarkOf(ls[i]).simplex {
      var i :| 0 <= i < |ls| && MarkOf(ls[i]).simplex;
      assert marks[i].simplex;
    } else {
      assert forall i :: 0 <= i < |marks| ==> !marks[i].simplex by {
        assert forall i :: 0 <= i < |marks| ==> marks[i] == MarkOf(ls[i]);
      }
    }
  }

  /** Every line that opens a [SimplexLogic] header, in any case, names exactly SimplexLogic. */
  predicate ExactSimplexHeaders(ls: seq<string>) {
    forall i :: 0 <= i < |ls| && MarkOf(ls[i]).simplex ==> Classify(ls[i]).header == Some(SimplexSection)
  }

  /** What the rewrite loop sees once the insertion pass has added its line at j. */
  lemma GrownInfo(out: seq<string>, post: Request, j: nat)
    requires SingleLineValues(post) && Enabled(post) && j <= |out|
    ensures Analyze(out[..j] + [PtyAssign(PtyValue(post))] + out[j..])
      == Analyze(out)[..j] + [LineInfo(None, Some(PtyKey))] + Analyze(out)[j..]
  {
    PtyValueSingleLine(post);
    PtyLineInfo(post);
    AnalyzeInsert(out, j, PtyAssign(PtyValue(post)));
  }

  /** The line the insertion pass adds after an exactly named [SimplexLogic] header is governed. */
  lemma InsertedLineGoverned(out: seq<string>, post: Request, h: nat, j: nat)
    requires SingleLineValues(post) && Enabled(post)
    requires h < j <= |out| && Analyze(out)[h].header == Some(SimplexSection)
    requires forall k :: h < k < j ==> !MarkOf(out[k]).opens
    ensures Section(Analyze(out), j) == Some(SimplexSection)
    ensures HasGoverned(Analyze(out[..j] + [PtyAssign(PtyValue(post))] + out[j..]))
  {
    var infos := Analyze(out);
    var x := LineInfo(None, Some(PtyKey));
    GrownInfo(out, post, j);
    var gi := infos[..j] + [x] + infos[j..];
    forall k | h < k < j ensures infos[k].header.None? {
      if infos[k].header.Some? {
        HeaderOpens(out[k]);
      }
    }
    SectionRunsOn(infos, h, j);
    SectionAroundInsert(infos, j, x, j);
    assert Governed(gi, j);
    GovernedBeforeExists(gi, |gi|);
  }

  /** A line of a grown file that is not the added one reads as the line it came from. */
  lemma GrownLineKept(out: seq<string>, post: Request, j: nat, i: nat)
    requires SingleLineValues(post) && Enabled(post)
    requires j <= |out| && i <= |out| && i != j
    ensures var grown := out[..j] + [PtyAssign(PtyValue(post))] + out[j..];
      var o := if i < j then i else i - 1;
      grown[i] == out[o] && Analyze(grown)[i] == Analyze(out)[o]
      && Section(Analyze(grown), i + 1) == Section(Analyze(out), o + 1)
  {
    var grown := out[..j] + [PtyAssign(PtyValue(post))] + out[j..];
    var infos := Analyze(out);
    var x := LineInfo(None, Some(PtyKey));
    GrownInfo(out, post, j);
    if i < j {
      SectionAroundInsert(infos, j, x, i + 1);
    } else {
      SectionAroundInsert(infos, j, x, i);
    }
  }

  /** The added line of a grown file is rewritten to itself. */
  lemma GrownLineAdded(out: seq<string>, post: Request, j: nat)
    requires SingleLineValues(post) && Enabled(post)
    requires j <= |out| && Section(Analyze(out), j) == Some(SimplexSection)
    ensures var grown := out[..j] + [PtyAssign(PtyValue(post))] + out[j..];
      FirstPass(grown, post)[j] == grown[j]
  {
    var grown := out[..j] + [PtyAssign(PtyValue(post))] + out[j..];
    var infos := Analyze(out);
    var x := LineInfo(None, Some(PtyKey));
    GrownInfo(out, post, j);
    var gi := Analyze(grown);
    assert gi == infos[..j] + [x] + infos[j..];
    assert FirstPass(grown, post)[j] == LineOut(grown[j], gi[j].key, Section(gi, j + 1), post);
    SectionAroundInsert(infos, j, x, j);
    assert gi[j] == x && grown[j] == PtyAssign(PtyValue(post));
    assert PtyLine(post) == PtyAssign(PtyValue(post));
  }

  /** A second rewrite loop leaves a file grown by the insertion pass as it is. */
  lemma GrownStable(out: seq<string>, post: Request, j: nat)
    requires SingleLineValues(post) && Enabled(post) && FirstPass(out, post) == out
    requires j <= |out| && Section(Analyze(out), j) == Some(SimplexSection)
    ensures var grown := out[..j] + [PtyAssign(PtyValue(post))] + out[j..];
      FirstPass(grown, post) == grown
  {
    var grown := out[..j] + [PtyAssign(PtyValue(post))] + out[j..];
    forall i | 0 <= i < |grown| ensures FirstPass(grown, post)[i] == grown[i] {
      if i == j {
        GrownLineAdded(out, post, j);
      } else {
        GrownLineKept(out, post, j, i);
        var o := if i < j then i else i - 1;
        assert FirstPass(out, post)[o] == out[o];
        assert FirstPass(grown, post)[i] == LineOut(grown[i], Analyze(grown)[i].key, Section(Analyze(grown), i + 1), post);
      }
    }
  }

  /**
   * The header the insertion pass puts its line after, the first
   * [SimplexLogic] header in any case, is named exactly SimplexLogic, or
   * there is no such header.
   */
  predicate TargetExact(ls: seq<string>) {
    match FindSimplexHeader(Marks(ls), 0)
    case None => true
    case Some(h) => Classify(ls[h]).header == Some(SimplexSection)
  }

  /**
   * Patching the patched lines again with the same form gives the same
   * lines exactly when the insertion pass, if it fires, puts its line after
   * a header named exactly SimplexLogic (provided no posted value spans two
   * lines). Otherwise the second patch adds the line once more.
   */
  lemma PatchIdempotent(ls: seq<string>, post: Request)
    requires SingleLineValues(post)
    ensures Patch(Patch(ls, post), post) == Patch(ls, post) <==> (Inserts(ls, post) ==> TargetExact(ls))
  {
    if !Inserts(ls, post) {
      PatchIdempotentNoInsert(ls, post);
    } else if TargetExact(ls) {
      PatchIdempotentExactTarget(ls, post);
    } else {
      var h := FindSimplexHeader(Marks(ls), 0).value;
      assert MisnamedAt(ls, h) by {
        assert Marks(ls)[h] == MarkOf(ls[h]);
        assert forall k :: 0 <= k < h ==> Marks(ls)[k] == MarkOf(ls[k]);
      }
      assert GrowingState(ls, post, h);
      MisnamedSaveGrows(ls, post, h);
      var p := Patch(ls, post);
      assert Inserts(p, post) by {
        assert MarkOf(p[h]).simplex;
      }
      PatchLength(p, post);
    }
  }

  /** When the insertion pass does not fire, patching the patched lines again changes nothing, whatever the headers. */
  lemma PatchIdempotentNoInsert(ls: seq<string>, post: Request)
    requires SingleLineValues(post) && !Inserts(ls, post)
    ensures Patch(Patch(ls, post), post) == Patch(ls, post)
  {
    var out := FirstPass(ls, post);
    FirstPassKeepsInfo(ls, post);
    FirstPassKeepsSections(ls, post);
    FirstPassIdempotent(ls, post);
    PatchLength(ls, post);
    assert Patch(ls, post) == out;
    if !HasGoverned(Analyze(ls)) && Enabled(post) {
      assert forall i :: 0 <= i < |out| ==> !MarkOf(out[i]).simplex by {
        assert forall i :: 0 <= i < |out| ==> Marks(out)[i] == MarkOf(out[i]) && Marks(ls)[i] == MarkOf(ls[i]);
      }
      InsertPassNoHeader(out, PtyValue(post));
    }
  }

  /** When the insertion pass targets a header named exactly SimplexLogic, patching the patched lines again changes nothing. */
  lemma PatchIdempotentExactTarget(ls: seq<string>, post: Request)
    requires SingleLineValues(post) && TargetExact(ls)
    ensures Patch(Patch(ls, post), post) == Patch(ls, post)
  {
    var infos := Analyze(ls);
    var out := FirstPass(ls, post);
    FirstPassKeepsInfo(ls, post);
    FirstPassKeepsSections(ls, post);
    FirstPassIdempotent(ls, post);
    var marks := Marks(out);
    if !HasGoverned(infos) && Enabled(post) && FindSimplexHeader(marks, 0).Some? {
      var h := FindSimplexHeader(marks, 0).value;
      var j := SectionEnd(marks, h + 1);
      var grown := out[..j] + [PtyAssign(PtyValue(post))] + out[j..];
      assert Patch(ls, post) == grown;
      assert Classify(ls[h]).header == Some(SimplexSection);
      assert Analyze(out)[h] == Classify(ls[h]);
      forall k | h < k < j ensures !MarkOf(out[k]).opens {
        assert marks[k] == MarkOf(out[k]);
      }
      InsertedLineGoverned(out, post, h, j);
      GrownStable(out, post, j);
    } else {
      assert Patch(ls, post) == out;
    }
  }

  /** Adding a DTMF_CTRL_PTY line in a section not named SimplexLogic governs nothing. */
  lemma UngovernedInsert(infos: seq<LineInfo>, h: nat, j: nat, x: LineInfo)
    requires x.header.None? && !HasGoverned(infos)
    requires h < j <= |infos| && infos[h].header.Some? && infos[h].header != Some(SimplexSection)
    requires forall k :: h < k < j ==> infos[k].header.None?
    ensures !HasGoverned(infos[..j] + [x] + infos[j..])
  {
    var gi := infos[..j] + [x] + infos[j..];
    SectionRunsOn(infos, h, j);
    GovernedBeforeExists(infos, |infos|);
    forall i | 0 <= i < |gi| ensures !Governed(gi, i) {
      if i < j {
        SectionAroundInsert(infos, j, x, i + 1);
        assert gi[i] == infos[i] && !Governed(infos, i);
      } else if i == j {
        SectionAroundInsert(infos, j, x, j);
      } else {
        SectionAroundInsert(infos, j, x, i);
        assert gi[i] == infos[i - 1] && !Governed(infos, i - 1);
      }
    }
    GovernedBeforeExists(gi, |gi|);
  }

  /** The line added after a header not named exactly SimplexLogic is not governed. */
  lemma InsertedLineUngoverned(out: seq<string>, post: Request, h: nat, j: nat)
    requires SingleLineValues(post) && Enabled(post) && !HasGoverned(Analyze(out))
    requires h < j <= |out| && Analyze(out)[h].header.Some? && Analyze(out)[h].header != Some(SimplexSection)
    requires forall k :: h < k < j ==> !MarkOf(out[k]).opens
    ensures !HasGoverned(Analyze(out[..j] + [PtyAssign(PtyValue(post))] + out[j..]))
  {
    var infos := Analyze(out);
    GrownInfo(out, post, j);
    forall k | h < k < j ensures infos[k].header.None? {
      if infos[k].header.Some? {
        HeaderOpens(out[k]);
      }
    }
    UngovernedInsert(infos, h, j, LineInfo(None, Some(PtyKey)));
  }

  /** n applications of step, starting from x. */
  function Iterate<T>(step: T -> T, x: T, n: nat): T
    decreases n
  {
    if n == 0 then x else Iterate(step, step(x), n - 1)
  }

  /** A step that adds one element wherever inv holds, and keeps inv, adds n elements in n steps. */
  lemma {:induction false} IterateGrows<T>(step: seq<T> -> seq<T>, inv: seq<T> -> bool, x: seq<T>, n: nat)
    requires inv(x)
    requires forall y :: inv(y) ==> |step(y)| == |y| + 1 && inv(step(y))
    ensures |Iterate(step, x, n)| == |x| + n
    decreases n
  {
    if n > 0 {
      IterateGrows(step, inv, step(x), n - 1);
    }
  }

  /** The file after n saves of the same form. */
  function Saves(ls: seq<string>, post: Request, n: nat): seq<string> {
    Iterate(x => Patch(x, post), ls, n)
  }

  /** The first [SimplexLogic] header, in any case, is line h and is not named exactly SimplexLogic. */
  predicate MisnamedAt(ls: seq<string>, h: nat) {
    h < |ls| && MarkOf(ls[h]).simplex && (forall k :: 0 <= k < h ==> !MarkOf(ls[k]).simplex)
    && Classify(ls[h]).header != Some(SimplexSection)
  }

  /**
   * The state in which every save of the form adds a line: one-line values,
   * the device enabled, nothing governed and a misnamed first header at h.
   */
  predicate GrowingState(ls: seq<string>, post: Request, h: nat) {
    SingleLineValues(post) && Enabled(post) && !HasGoverned(Analyze(ls)) && MisnamedAt(ls, h)
  }

  /**
   * One save of an enabling form under a misnamed first header adds one
   * line, before which the file is unchanged, so the header is still the
   * first one and still nothing is governed.
   */
  lemma MisnamedSaveGrows(ls: seq<string>, post: Request, h: nat)
    requires GrowingState(ls, post, h)
    ensures |Patch(ls, post)| == |ls| + 1 && GrowingState(Patch(ls, post), post, h)
  {
    var out := FirstPass(ls, post);
    assert Inserts(ls, post) by {
      assert MarkOf(ls[h]).simplex;
    }
    PatchLength(ls, post);
    MisnamedFirstSave(ls, post, h);
    FirstSaveInserts(ls, post, h);
    FirstPassKeepsSections(ls, post);
    var j := SectionEnd(Marks(out), h + 1);
    MisnamedKept(ls, out, h, j, PtyAssign(PtyValue(post)));
  }

  /** A line added after the section of a misnamed first header leaves that header first. */
  lemma MisnamedKept(ls: seq<string>, out: seq<string>, h: nat, j: nat, x: string)
    requires MisnamedAt(ls, h) && Marks(out) == Marks(ls) && out[h] == ls[h]
    requires h < j <= |out|
    ensures MisnamedAt(out[..j] + [x] + out[j..], h)
  {
    var p := out[..j] + [x] + out[j..];
    assert forall k :: 0 <= k <= h ==> p[k] == out[k];
    forall k | 0 <= k < h ensures !MarkOf(p[k]).simplex {
      assert Marks(out)[k] == MarkOf(out[k]) && Marks(ls)[k] == MarkOf(ls[k]);
    }
  }

  /**
   * A [SimplexLogic] header spelled in another case is found by the
   * insertion pass (its regex ignores case) but never governs DTMF_CTRL_PTY
   * (the rewrite loop compares the section name exactly), so every save of
   * an enabling form adds DTMF_CTRL_PTY once more: n saves add n lines.
   */
  lemma MisnamedHeaderGrowsEachSave(ls: seq<string>, post: Request, h: nat, n: nat)
    requires GrowingState(ls, post, h)
    ensures |Saves(ls, post, n)| == |ls| + n
  {
    forall y | GrowingState(y, post, h)
      ensures |Patch(y, post)| == |y| + 1 && GrowingState(Patch(y, post), post, h)
    {
      MisnamedSaveGrows(y, post, h);
    }
    IterateGrows(x => Patch(x, post), y => GrowingState(y, post, h), ls, n);
  }

  /** Where the first save inserts the line, when it does. */
  lemma FirstSaveInserts(ls: seq<string>, post: Request, h: nat)
    requires Enabled(post) && !HasGoverned(Analyze(ls))
    requires h < |ls| && MarkOf(ls[h]).simplex && forall k :: 0 <= k < h ==> !MarkOf(ls[k]).simplex
    ensures var out := FirstPass(ls, post);
      var j := SectionEnd(Marks(out), h + 1);
      Patch(ls, post) == out[..j] + [PtyAssign(PtyValue(post))] + out[j..]
      && (forall k :: h < k < j ==> !MarkOf(out[k]).opens)
      && out[h] == ls[h]
  {
    var out := FirstPass(ls, post);
    FirstPassKeepsSections(ls, post);
    var marks := Marks(out);
    FirstHeaderAt(ls, h);
    var j := SectionEnd(marks, h + 1);
    forall k | h < k < j ensures !MarkOf(out[k]).opens {
      assert marks[k] == MarkOf(out[k]);
    }
    if Classify(ls[h]).key.Some? {
      KeyedLine(ls[h]);
    }
  }

  /** After the first save the file still has the header and still no governed line. */
  lemma MisnamedFirstSave(ls: seq<string>, post: Request, h: nat)
    requires SingleLineValues(post) && Enabled(post) && !HasGoverned(Analyze(ls))
    requires h < |ls| && MarkOf(ls[h]).simplex && forall k :: 0 <= k < h ==> !MarkOf(ls[k]).simplex
    requires Classify(ls[h]).header != Some(SimplexSection)
    ensures !HasGoverned(Analyze(Patch(ls, post)))
    ensures h < |Patch(ls, post)| && MarkOf(Patch(ls, post)[h]).simplex
  {
    var out := FirstPass(ls, post);
    FirstPassKeepsInfo(ls, post);
    FirstSaveInserts(ls, post, h);
    SimplexHeaderNamed(ls[h]);
    var j := SectionEnd(Marks(out), h + 1);
    assert Analyze(out)[h] == Classify(ls[h]);
    InsertedLineUngoverned(out, post, h, j);
  }
}

=== FILE: svx_lines.dfy ===
/**
 * Facts about single lines of svxlink.conf: what the regular expressions of
 * includes/save-svx.php see in the lines the script itself writes, and in
 * the lines it rewrites.
 */
module SvxLines {
  import opened Wrappers
  import opened PhpText
  import opened SvxConf

  /** A key as the key regex captures it: one or more of [A-Za-z0-9_]. */
  predicate IsKey(k: string) {
    |k| > 0 && forall i :: 0 <= i < |k| ==> IsWordChar(k[i])
  }

  /** No posted value spans two lines. */
  predicate SingleLineValues(post: Request) {
    forall i :: 0 <= i < |post| ==> '\n' !in post[i].1
  }

  /** A line the script writes: a prefix ending in '=', the value, a newline. */
  lemma TrimWritten(pre: string, v: string)
    requires |pre| > 0 && !IsTrimChar(pre[0]) && pre[|pre| - 1] == '='
    ensures Trim(pre + v + "\n") == pre + RTrim(v)
  {
    assert pre + v + "\n" == pre + (v + ['\n']);
    TrimOfPrefixed(pre, v + ['\n']);
    RTrimDropsLast(v, '\n');
  }

  /** Lower-casing never produces '['. */
  lemma LowerNotBracket(c: char)
    requires c != '['
    ensures Lower(c) != '['
  {
  }

  /** A trimmed text that does not start with '[' is no header, and neither regex of the insertion pass matches it. */
  lemma NotBracketText(t: string)
    requires |t| > 0 && t[0] != '['
    ensures HeaderName(t) == None
    ensures !OpensBracket(t) && !IsSimplexHeader(t)
  {
    LowerNotBracket(t[0]);
    if |SimplexHeader| <= |t| {
      assert Lower(t[..|SimplexHeader|][0]) != Lower(SimplexHeader[0]);
    }
  }

  /** A line whose trim() has a key capture starts with '#', white space or a key character. */
  lemma KeyedTextStart(t: string)
    requires KeyOf(t).Some?
    ensures |t| > 0 && t[0] != '['
  {
    var a := if |t| > 0 && t[0] == '#' then 1 else 0;
    if a == 0 {
      var b := Run(t, 0, Space);
      if b == 0 {
        RunSpec(t, 0, Word);
        assert IsWordChar(t[0]);
      }
    }
  }

  /** A line with a key capture is no header and is not seen by the insertion pass. */
  lemma KeyedLine(line: string)
    requires Classify(line).key.Some?
    ensures Classify(line).header == None
    ensures MarkOf(line) == Mark(false, false)
  {
    KeyedTextStart(Trim(line));
    NotBracketText(Trim(line));
  }

  /** A line the script writes is no header and is not seen by the insertion pass. */
  lemma WrittenLineMarks(pre: string, v: string)
    requires |pre| > 0 && !IsTrimChar(pre[0]) && pre[0] != '[' && pre[|pre| - 1] == '='
    ensures Classify(pre + v + "\n").header == None
    ensures MarkOf(pre + v + "\n") == Mark(false, false)
  {
    TrimWritten(pre, v);
    NotBracketText(pre + RTrim(v));
  }

  /** The key regex on "k=w" or "#k=w" with a single-line w captures k. */
  lemma KeyOfAssignment(hash: string, k: string, w: string)
    requires hash == "" || hash == "#"
    requires IsKey(k) && '\n' !in w
    ensures KeyOf(hash + k + "=" + w) == Some(k)
  {
    var t := hash + k + "=" + w;
    var a := |hash|;
    assert a == (if |t| > 0 && t[0] == '#' then 1 else 0);
    var c := a + |k|;
    assert forall m :: a <= m < c ==> t[m] == k[m - a];
    RunStops(t, a, Space);
    RunOver(t, a, c, Word);
    assert t[c] == '=';
    RunStops(t, c, Word);
    RunStops(t, c, Space);
    assert forall m :: c + 1 <= m < |t| ==> t[m] == w[m - c - 1];
    assert t[a..c] == k;
  }

  /** What the key regex captures in a line the script writes: the key it wrote. */
  lemma WrittenLineKey(hash: string, k: string, v: string)
    requires hash == "" || hash == "#"
    requires IsKey(k) && '\n' !in v
    ensures Classify(hash + k + "=" + v + "\n").key == Some(k)
  {
    var pre := hash + k + "=";
    assert hash + k + "=" + v + "\n" == pre + v + "\n";
    TrimWritten(pre, v);
    var w := RTrim(v);
    RTrimSpec(v);
    assert forall i :: 0 <= i < |w| ==> w[i] == v[i];
    assert pre + w == hash + k + "=" + w;
    KeyOfAssignment(hash, k, w);
  }

  /** The two lines the DTMF_CTRL_PTY special case writes carry the key DTMF_CTRL_PTY and no header. */
  lemma PtyLineInfo(post: Request)
    requires '\n' !in PtyValue(post)
    ensures Classify(PtyLine(post)) == LineInfo(None, Some(PtyKey))
    ensures MarkOf(PtyLine(post)) == Mark(false, false)
  {
    var v := PtyValue(post);
    var hash := if Enabled(post) then "" else "#";
    assert PtyLine(post) == hash + PtyKey + "=" + v + "\n";
    WrittenLineKey(hash, PtyKey, v);
    KeyedLine(PtyLine(post));
  }

  /** A plain replacement line carries the key it replaces and no header. */
  lemma PlainLineInfo(k: string, v: string)
    requires IsKey(k) && '\n' !in v
    ensures Classify(k + "=" + v + "\n") == LineInfo(None, Some(k))
    ensures MarkOf(k + "=" + v + "\n") == Mark(false, false)
  {
    WrittenLineKey("", k, v);
    assert "" + k + "=" + v + "\n" == k + "=" + v + "\n";
    KeyedLine(k + "=" + v + "\n");
  }

  /** A key capture is a key. */
  lemma KeyIsKey(t: string)
    requires KeyOf(t).Some?
    ensures IsKey(KeyOf(t).value)
  {
    var a := if |t| > 0 && t[0] == '#' then 1 else 0;
    var b := a + Run(t, a, Space);
    RunSpec(t, b, Word);
    var c := b + Run(t, b, Word);
    assert forall i :: 0 <= i < c - b ==> t[b..c][i] == t[b + i];
  }

  /** The value DTMF_CTRL_PTY is set to is one line when every posted value is. */
  lemma PtyValueSingleLine(post: Request)
    requires SingleLineValues(post)
    ensures '\n' !in PtyValue(post)
  {
    if Lookup(post, PtyKey).None? {
      assert DefaultPty == "/dev/shm/dtmf_ctrl";
      assert forall i :: 0 <= i < |DefaultPty| ==> DefaultPty[i] != '\n';
    }
  }

  /** The line the DTMF_CTRL_PTY special case writes is no header, whatever the value. */
  lemma PtyLineMarks(post: Request)
    ensures Classify(PtyLine(post)).header == None
    ensures MarkOf(PtyLine(post)) == Mark(false, false)
  {
    var v := PtyValue(post);
    if Enabled(post) {
      WrittenLineMarks(PtyKey + "=", v);
    } else {
      assert PtyLine(post) == ("#" + PtyKey + "=") + v + "\n";
      WrittenLineMarks("#" + PtyKey + "=", v);
    }
  }

  /**
   * Rewriting a line keeps what the header regex and the insertion pass see
   * in it: the rewrite loop creates and removes no section header.
   */
  lemma LineOutKeepsSections(line: string, section: Option<string>, post: Request)
    ensures Classify(LineOut(line, Classify(line).key, section, post)).header == Classify(line).header
    ensures MarkOf(LineOut(line, Classify(line).key, section, post)) == MarkOf(line)
  {
    var key := Classify(line).key;
    if key.Some? {
      var k := key.value;
      KeyedLine(line);
      KeyIsKey(Trim(line));
      if k == PtyKey && section == Some(SimplexSection) {
        PtyLineMarks(post);
      } else if PlainMatch(post, k).Some? {
        WrittenLineMarks(k + "=", PlainMatch(post, k).value);
      }
    }
  }

  /**
   * With single-line values, a rewritten line reads back with the same key,
   * and rewriting it again in the same section gives the same line.
   */
  lemma LineOutStable(line: string, section: Option<string>, post: Request)
    requires SingleLineValues(post)
    ensures Classify(LineOut(line, Classify(line).key, section, post)) == Classify(line)
    ensures var out := LineOut(line, Classify(line).key, section, post);
      LineOut(out, Classify(out).key, section, post) == out
  {
    var key := Classify(line).key;
    if key.Some? {
      var k := key.value;
      KeyedLine(line);
      KeyIsKey(Trim(line));
      if k == PtyKey && section == Some(SimplexSection) {
        PtyValueSingleLine(post);
        PtyLineInfo(post);
      } else if PlainMatch(post, k).Some? {
        PlainLineInfo(k, PlainMatch(post, k).value);
      }
    }
  }

  /** A section header is a line whose trim() starts with '['. */
  lemma HeaderOpens(line: string)
    requires Classify(line).header.Some?
    ensures MarkOf(line).opens
  {
    var t := Trim(line);
    var seg := t[..Run(t, 0, NotNewline)];
    assert seg[0] == t[0];
  }

  /**
   * Blank lines, section headers and `##` comments have no key capture: the
   * rewrite loop copies them.
   */
  lemma NoKeyLines(t: string)
    requires t == [] || t[0] == '[' || (|t| >= 2 && t[0] == '#' && t[1] == '#')
    ensures KeyOf(t) == None
  {
    if t != [] {
      var a := if t[0] == '#' then 1 else 0;
      RunStops(t, a, Space);
      RunStops(t, a, Word);
    }
  }

  /** A line that opens [SimplexLogic], in any case, is a section header. */
  lemma SimplexHeaderNamed(line: string)
    requires MarkOf(line).simplex
    ensures Classify(line).header.Some?
  {
    var t := Trim(line);
    var n := |SimplexHeader|;
    assert n == 14;
    assert forall i :: 0 <= i < n ==> Lower(t[i]) == Lower(SimplexHeader[i]) by {
      assert forall i :: 0 <= i < n ==> t[..n][i] == t[i];
    }
    RunSpec(t, 0, NotNewline);
    var r := Run(t, 0, NotNewline);
    if r < n {
      assert t[r] == '\n';
      assert Lower(t[r]) == '\n';
    }
    var seg := t[..r];
    assert Lower(t[0]) == '[';
    assert Lower(t[13]) == ']';
    assert seg[1..][12] == ']';
  }
}

=== FILE: wrappers.dfy ===
/** Option: the absent-or-present value used for PHP's null, missing array keys and failed matches. */
module Wrappers {
  datatype Option<+T> = None | Some(value: T) {
    function GetOr(default: T): T {
      match this
      case Some(v) => v
      case None => default
    }
  }
}
